=== FILE: README.md ===
# Telemetry and cloud-call core of the recipe mini-program

This project models, in Dafny, the telemetry and remote-call core of `app.js`, the
application object of a WeChat mini-program. The rest of that file does storage,
network-state, login and UI work outside this core and is not modelled; "Left out"
lists it.

The model is functional. The `performanceMetrics` object becomes an immutable
`Telemetry.Metrics` value, and every operation returns a new one. The clock
becomes `nat` parameters: one per operation, or two (the start and the end) for
`callCloudFunction` and for the wrapped request callbacks. Where the source reads `Date.now()` more than once within one
operation, those reads share one value (see "Left out"). Host calls become values: the
dispatcher returns the trace of effects it would ask the host for (show loading,
hide loading, record a sample, toast a message) together with how its promise
settles.

Modules, one per component:

- `Text` (`text.dfy`): JavaScript's `String.prototype.includes`, with a proof that
  it agrees with the positional definition of a substring.
- `Series` (`series.dfy`): samples and the bounded per-key logs. This includes the
  "push, then `slice(-n)` when longer than n" rule (`KeepLast`). A log's keys are
  kept in creation order, which is the order `Object.keys` enumerates them in.
- `Telemetry` (`telemetry.dfy`): recording page-load and request times (caps 10
  and 20), the performance report and the reset. Each mean is an exact sum/count
  pair (`Avg`). A count of 0 plays the part of JavaScript's `NaN`.
- `Recommendations` (`recommendations.dfy`): the four threshold rules, in their
  fixed order.
- `Errors` (`errors.dfy`): the global, network and cloud error handlers, as the
  message they toast, plus `logError`'s 50-entry log.
- `Dispatcher` (`dispatcher.dfy`): `callCloudFunction` as a function from the
  transport's outcome and the two clock readings to an effect trace, the new
  metrics and the settlement.
- `Interceptors` (`interceptors.dfy`): the recording done by the wrapped page
  `onLoad`/`onReady` and by the wrapped `wx.request` callbacks.

Behaviour worth knowing when reading the model:

- The network classifier tests `fail` before `abort`.
- There is no separate "unknown" error kind, only a default message.
- The page recommendation's type is `page`.
- A call whose transport succeeds but whose envelope reports failure is recorded
  with `success = true`. This comes from the default parameter of
  `recordNetworkRequestTime`.
- Hooks are installed with no install-once guard.
- The loading indicator is shown and hidden once per call, with no reference
  count.
- When `wx.cloud` is missing, `callCloudFunction` shows the loading indicator and
  then `wx.cloud.callFunction` throws inside the promise executor. The promise
  rejects with that `TypeError`, and the indicator is never hidden. Nothing is
  recorded and nothing is toasted.

## Model

| member | source | states |
|---|---|---|
| `Text.IncludesIffOccurs` | app.js:322 | `includes` holds exactly when the pattern occurs at some index of the text |
| `Series.KeepLast` | app.js:575-579 | the result has min(length, n) elements and is the newest suffix of the input, oldest first |
| `Series.Append` | app.js:566-579 | one append under a key: the key exists afterwards; its log is the last `cap` elements of old log ++ [x]; the new length is min(old + 1, cap); the new sample is last; other keys are unchanged; a new key is added at the end of the key order; the store invariant (distinct keys, logs of 1..cap samples) is preserved |
| `Series.AppendAllKeepsNewest` | app.js:570-579 | after any run of records under one key, its log is the newest `cap` of everything recorded there, and the invariant still holds |
| `Series.AppendAllWindow` | app.js:570-579 | from a log within the cap, any run of records under one key leaves the newest `cap` of old ++ records |
| `Series.AppendAllWellFormed` | app.js:566-579 | any run of records under one key keeps the store invariant |
| `Series.AppendAllOtherKeys` | app.js:588-602 | recording under one key never changes another key's log |
| `Series.RecordsFromEmpty` | app.js:598-602 | from an empty store, N records leave min(N, cap) samples, exactly the newest ones |
| `Telemetry.RecordPageLoadTime` | app.js:565-582 | the route's log becomes the newest 10 of old ++ [sample]; the sample holds the load time and timestamp; an existing route keeps its place in the key order and a new route goes last; other routes, request logs and scalars are unchanged; the invariant is preserved |
| `Telemetry.RecordNetworkRequestTime` | app.js:585-605 | the key's log becomes the newest 20 of old ++ [sample with its success flag]; an existing key keeps its place in the key order and a new key goes last; other keys, page logs and scalars are unchanged; the invariant is preserved |
| `Telemetry.ClearPerformanceData` | app.js:687-697 | launch time, memory use and cache hit rate are 0; both series maps and key orders are empty; the result satisfies the invariant |
| `Telemetry.ExceedsIffMeanAbove` | app.js:651-653 | comparing the sum/count pair with a threshold is the same as comparing the exact mean; an empty series never exceeds, as `NaN` never does |
| `Telemetry.GetPerformanceReport` | app.js:608-634 | the scalars are copied through; each average map has exactly the stored keys, in the same order; each average is the sum and count of that key's retained samples |
| `Telemetry.ReportMeansDefined` | app.js:612-623 | on metrics that keep the invariant, every average covers 1..cap samples, so none divides by zero, and each equals sum / length of the retained samples |
| `Telemetry.ReportAfterClear` | app.js:687-694 | the report after a reset has zero scalars and empty average maps |
| `Telemetry.MeanOfThreeLoads` | app.js:613-616 | page loads of 100, 200 and 300 ms under one route average exactly 200 ms |
| `Telemetry.ThreeLoadsRetained` | app.js:565-579 | after three page loads under one route from the initial metrics, all three samples are retained, oldest first |
| `Recommendations.SlowKeys` | app.js:651-660 | a key is selected iff it is enumerated, has an average, and that average strictly exceeds the threshold |
| `Recommendations.SlowKeysInOrder` | app.js:651-660 | the selection keeps enumeration order: it is the key list with some keys deleted |
| `Recommendations.SlowKeysCount` | app.js:651-672 | with distinct keys, the number selected is the number of keys whose average exceeds the threshold |
| `Recommendations.KeyRule` | app.js:651-672 | one entry of the rule's type and priority per selected key, in order, carrying the key and its average |
| `Recommendations.Recommend` | app.js:637-684 | the length is the number of matches; when launchTime > 3000 the first entry is the launch/high one; entry L + i is page/medium for the i-th slow route with its average (L = 1 if the launch rule fired, else 0); entry L + #slow routes + i is network/high for the i-th slow key with its average; when memoryUsage > 52428800 the last entry is the memory/medium one |
| `Recommendations.RecommendFacts` | app.js:637-684 | the output is ordered launch, page, network, memory; there is a launch entry iff launchTime > 3000 and a memory entry iff memoryUsage > 52428800; a route or key is named iff it is enumerated and its average is strictly above 2000 or 5000 |
| `Recommendations.GetOptimizationRecommendations` | app.js:637-684 | the same layout as `Recommend`, stated over the metrics: the launch entry first, then one page/medium entry per slow route and one network/high entry per slow key in key order, each carrying the mean of that key's retained samples, then the memory entry last |
| `Recommendations.RoutesOverSamples` | app.js:651-660 | each page entry names a stored route and carries the mean of the samples retained for it |
| `Recommendations.RequestsOverSamples` | app.js:663-672 | each network entry names a stored key and carries the mean of the samples retained for it |
| `Recommendations.RecommendationsOverSamples` | app.js:637-684 | over the stored samples: the output is ordered; launch and memory entries appear iff their thresholds are exceeded; a route or key is named iff the mean of its retained samples exceeds the threshold |
| `Recommendations.RecommendationCount` | app.js:642-683 | on metrics that keep the invariant, the number of recommendations is the launch match plus the number of slow routes plus the number of slow request keys plus the memory match |
| `Recommendations.ThreeRulesFire` | app.js:641-681 | launch 4000, one route at 2500, no request keys and 60 MiB give exactly launch/high, page/medium naming the route, and memory/medium |
| `Recommendations.ThresholdsAreStrict` | app.js:642-675 | values exactly at the thresholds give no recommendation |
| `Errors.HandleNetworkError` | app.js:317-333 | returns false; the first of `timeout`, `fail`, `abort` in a truthy `errMsg` picks the timeout, request-failed or cancelled message; a missing error or `errMsg`, or no match, gives the connection-failed default (each direction proved) |
| `Errors.TimeoutBeforeFail` | app.js:322-325 | every diagnostic containing `timeout` gets the timeout message, whatever else it contains |
| `Errors.TimeoutBeforeFailExample` | app.js:322-325 | `request:fail timeout` gets the timeout message |
| `Errors.FailBeforeAbort` | app.js:322-327 | every diagnostic containing `fail` and `abort` but no `timeout` gets the request-failed message, not the cancelled one |
| `Errors.FailBeforeAbortExample` | app.js:324-327 | `request:fail abort` gets the request-failed message |
| `Errors.NetworkErrorExamples` | app.js:319-328 | `aborted` is cancelled; an unknown, empty or missing diagnostic, or no error, gets the default |
| `Errors.HandleCloudError` | app.js:336-358 | returns false; no truthy `errCode` gives the server-busy text; -1, -2 and 87009 give their fixed messages; any other code gives a non-empty `errMsg`, else server-busy |
| `Errors.TextReasonIsServerBusy` | app.js:338-340 | a plain text reason has no `errCode`, so it always gets the server-busy text |
| `Errors.CloudErrorExamples` | app.js:340-353 | sample codes: -2, 87009, 999 with and without a message, and 0 (falsy) |
| `Errors.GlobalErrorMessage` | app.js:299-308 | a non-string gets the generic message; a string with `network` gets the network message; otherwise one with `permission` gets the permission message; anything else gets the generic one |
| `Errors.HandleGlobalError` | app.js:296-314 | the toast is the network, permission or generic message under exactly those conditions (both directions); the error is logged unless it is null or undefined |
| `Errors.NetworkBeforePermission` | app.js:299-306 | every string containing `network` gets the network message, whether or not it also contains `permission`; a non-string with the same text gets the generic message |
| `Errors.NetworkBeforePermissionExample` | app.js:303-306 | `network permission` gets the network message; a non-string `network` gets the generic one |
| `Errors.LogError` | app.js:361-383 | a null or undefined error leaves the log unchanged, because its `toString` throws and the catch ignores it; any other error leaves min(old + 1, 50) entries, the newest 50 of old ++ [entry], with the entry's text and timestamp last |
| `Errors.LogErrorStep` | app.js:361-383 | from a log of at most 50 entries, one call leaves the newest 50 of old ++ the entries it appends (none for a null or undefined error), so the log stays at most 50 long |
| `Errors.ErrorLogKeepsNewest` | app.js:361-383 | any run of `logError` calls, each with its own error and clock reading, keeps exactly the newest 50 of old ++ the entries of the non-null errors, oldest first |
| `Dispatcher.RejectionReason` | app.js:441 | the reason is the envelope's truthy `error` if there is one, and the text 操作失败 in every other case; it is always truthy |
| `Dispatcher.CallCloudFunction` | app.js:423-458 | loading is shown first, exactly once; without `wx.cloud` the trace is only that, the metrics are unchanged and the promise rejects with the thrown `TypeError`; otherwise loading is hidden second, exactly once, then one sample (end - start) is recorded under the name with success false only on transport failure, and the metrics are the ones that record makes; the call resolves with `result.data` iff an envelope exists and reports success, and then the trace has three effects, otherwise four (the last a toast) |
| `Dispatcher.StartedTrace` | app.js:426-454 | a trace for a started call is show, hide, record, then the one toast if there is one |
| `Dispatcher.Settle` | app.js:438-454 | the promise resolves exactly when the envelope exists and reports success, and then with the envelope's data; a transport failure rejects with the transport error, a failing envelope with its rejection reason, and a missing `wx.cloud` with the thrown `TypeError` |
| `Dispatcher.FailureToast` | app.js:438-453 | a toast is shown exactly when the call started and does not resolve |
| `Dispatcher.RejectionToasts` | app.js:440-454 | a rejected call toasts the cloud-error classifier's message and rejects with the envelope's reason after a completed transport, and toasts the network-error classifier's message and rejects with the transport error after a failed one |
| `Dispatcher.TraceMatchesMetrics` | app.js:423-451 | without `wx.cloud` the metrics are unchanged; otherwise the recorded effect is the newest sample under the name in the new metrics; other keys and the page logs are untouched; the invariant is preserved |
| `Dispatcher.ApplicationFailureRecordedAsSuccess` | app.js:436-443 | an envelope reporting failure with no error is recorded with success true, toasts server-busy and rejects with 操作失败 |
| `Dispatcher.SuccessfulCallExample` | app.js:425-439 | a 120 ms successful `getUser` call resolves with its data and leaves exactly one successful 120 ms sample |
| `Interceptors.OnLoad` | app.js:490-497 | the wrapped `onLoad` remembers the current time as the page's load start |
| `Interceptors.LoadTime` | app.js:500 | the load time is now - start when a truthy start was remembered, else 0 |
| `Interceptors.OnReady` | app.js:499-505 | the wrapped `onReady` makes the route's log the newest 10 of old ++ [(load time, now)]; an existing route keeps its place in the key order and a new route goes last; other routes, the request logs and the scalars are unchanged; the invariant is preserved |
| `Interceptors.PageLifecycleRecordsElapsed` | app.js:490-502 | a page loaded at t0 > 0 and ready at t1 records t1 - t0 under its route |
| `Interceptors.OnRequestSuccess` | app.js:532-536 | the wrapped `success` callback makes the URL's log the newest 20 of old ++ [(now - start, true, now)]; an existing URL keeps its place in the key order and a new URL goes last; other keys, the page logs and the scalars are unchanged; the invariant is preserved |
| `Interceptors.OnRequestFail` | app.js:538-542 | the wrapped `fail` callback makes the URL's log the newest 20 of old ++ [(now - start, false, now)]; an existing URL keeps its place in the key order and a new URL goes last; other keys, the page logs and the scalars are unchanged; the invariant is preserved |

## Left out

- Host calls are only effect tokens or parameters. This covers `wx.showLoading`, `wx.hideLoading`, `wx.showToast` and storage reads and writes. The error log's stored array is a parameter and result of `Errors.LogError`. The toast's icon and duration are not modelled.
- Storage failures are not modelled. `wx.getStorageSync` or `wx.setStorageSync` could throw inside `logError`'s `try`.
- The monkey-patching of the global `Page` factory and of `wx.request` is not modelled (app.js:481-546). Reassigning host factories and passing `this` through cannot be written in Dafny. Only the recording effect is modelled. The original callbacks' arguments and return values pass through untouched.
- The wrapped `onShow` only writes to the console, so it is not modelled.
- The `setInterval` memory sampler (app.js:549-562) is not modelled. It is driven by a timer and reads the host's performance API.
- `onLaunch`'s launch-time measurement is not modelled. `launchTime` and `memoryUsage` are fields of `Metrics` that the model reads and resets but never sets.
- Overlapping calls sharing the one loading indicator are not modelled. Neither is `showEnhancedLoading`'s `setTimeout`. Both involve concurrency and timers. `Dispatcher.CallCloudFunction` describes one call in isolation.
- `Recommendations.Recommend`: messages are structured values. The page and network messages carry the key and the exact mean. The `toFixed(0)` text rendering is not modelled. The fixed launch and memory texts are not reproduced.
- `Telemetry.GetPerformanceReport`: means are exact rationals rather than IEEE doubles. The report's `systemInfo` field (host data) is omitted.
- `Telemetry.Metrics`: JavaScript enumerates integer-like object keys (such as `"42"`) before other keys. The model enumerates every key in creation order. Routes and URLs are never integer-like in practice.
- Keys inherited from `Object.prototype`, such as `"constructor"`, are not modelled. In the source such a key would make the `push` throw.
- Non-string request keys are not modelled. The source calls `toString()` on them. An undefined `url` or route is not modelled either.
- `Interceptors.LoadTime`: the two `Date.now()` reads on the fallback path are one clock value, so the fallback load time is exactly 0.
- `Dispatcher.CallCloudFunction`: the source reads `Date.now()` once for the elapsed time and again inside `recordNetworkRequestTime` for the sample's timestamp. The model uses the one end reading for both.
- `Interceptors.OnReady`: the load time and the sample's timestamp come from two `Date.now()` reads in the source. The model uses one reading `now` for both.
- `Interceptors.OnRequestSuccess`: the elapsed time and the sample's timestamp come from two `Date.now()` reads in the source. The model uses one reading `now` for both.
- `Interceptors.OnRequestFail`: the elapsed time and the sample's timestamp come from two `Date.now()` reads in the source. The model uses one reading `now` for both.
- `Errors.ErrorLogKeepsNewest`: it starts from a stored log of at most 50 entries, which is every log `logError` writes. A longer log placed in storage by other code is cut to 50 by the first non-null error, but is kept whole if only null errors follow.
- `Dispatcher.CallCloudFunction`: `result.success` is reduced to its truthiness. The payload `data` goes only to the transport, whose outcome is a parameter.
- `Errors.HandleCloudError`: `errCode` is an optional integer. A code given as a string or as `NaN` is not modelled.
- Console logging is not modelled.
- Login and session bookkeeping are not modelled: `checkLoginStatus`, `setUserInfo`, `setCurrentGroup`, `logout`, `saveAppState`, `refreshUserInfo`.
- `clearCache` is not modelled. It removes every storage key except `userInfo` and `currentGroupId` (app.js:165-181). That is storage work outside the telemetry and cloud-call core.
- `handleMemoryWarning` is not modelled. When the warning level is at least 10 it calls `clearCache` and shows a toast (app.js:156-162). That is storage and UI work outside this core.
- `checkNetworkStatus` is not modelled. It stores whether the network type is `none`, with the type itself, in `networkStatus`, and shows a toast when it is `none` (app.js:97-113). That is network-state and UI work outside this core.
- `wx.cloud.init` in `onLaunch` is not modelled. It is host configuration.

=== FILE: dispatcher.dfy ===
/**
 * `callCloudFunction(name, data)`: one remote call wrapped in a loading
 * indicator, timed, recorded under `name`, and settled. The transport's
 * outcome and the two clock readings are parameters; what the host would be
 * asked to do is returned as a trace of effects.
 */
module Dispatcher {
  import opened Wrappers
  import opened Series
  import opened Telemetry
  import opened Errors

  const LoadingTitle: string := "加载中..."
  const OperationFailed: string := "操作失败"

  /** Host calls issued by the dispatcher, in order. */
  datatype Effect =
    | ShowLoading(title: string, mask: bool)
    | HideLoading
    | Record(key: string, elapsed: int, success: bool)
    | Toast(message: string)

  /** The cloud function's `result` envelope. `success` stands for the truthiness of `result.success`. */
  datatype Envelope<D> = Envelope(success: bool, data: Option<D>, error: Option<CloudError>)

  /**
   * How the call ended: `wx.cloud` was missing, so `wx.cloud.callFunction`
   * threw inside the promise executor; or the transport ran its `fail`
   * callback; or it ran its `success` callback with `res.result`.
   */
  datatype Outcome<D> =
    | CloudMissing
    | TransportFail(error: TransportError)
    | TransportOk(result: Option<Envelope<D>>)

  /**
   * What the returned promise is rejected with: the envelope's reason, the
   * transport's error, or the `TypeError` thrown when `wx.cloud` is missing.
   */
  datatype Reason =
    | CloudReason(cloudError: CloudError)
    | TransportReason(transportError: TransportError)
    | ThrownTypeError

  datatype Settlement<D> = Resolved(data: Option<D>) | Rejected(reason: Reason)

  datatype Call<D> = Call(trace: seq<Effect>, metrics: Metrics, settlement: Settlement<D>)

  predicate Truthy(e: CloudError) {
    !(e.ErrorText? && e.text == "")
  }

  /** `res.result?.error || '操作失败'`. */
  function RejectionReason<D>(result: Option<Envelope<D>>): (e: CloudError)
    ensures Truthy(e)
    ensures result.Some? && result.value.error.Some? && Truthy(result.value.error.value) ==> e == result.value.error.value
    ensures !(result.Some? && result.value.error.Some? && Truthy(result.value.error.value)) ==> e == ErrorText(OperationFailed)
  {
    if result.Some? && result.value.error.Some? && Truthy(result.value.error.value) then result.value.error.value
    else ErrorText(OperationFailed)
  }

  /** The call resolves exactly when the envelope exists and reports success. */
  predicate Succeeds<D>(outcome: Outcome<D>) {
    outcome.TransportOk? && outcome.result.Some? && outcome.result.value.success
  }

  function CallCloudFunction<D>(m: Metrics, name: string, start: nat, end: nat, outcome: Outcome<D>): (c: Call<D>)
    // loading is shown once, first
    ensures |c.trace| >= 1 && c.trace[0] == ShowLoading(LoadingTitle, true)
    ensures forall i :: 1 <= i < |c.trace| ==> !c.trace[i].ShowLoading?
    // without `wx.cloud` the executor throws: loading stays up and nothing is recorded
    ensures outcome.CloudMissing? ==>
      c.trace == [ShowLoading(LoadingTitle, true)] && c.metrics == m && c.settlement == Rejected(ThrownTypeError)
    // otherwise loading is hidden once, second, before the one sample recorded
    // under `name`; a transport failure is the only unsuccessful one
    ensures !outcome.CloudMissing? ==>
      && |c.trace| >= 3
      && c.trace[1] == HideLoading
      && c.trace[2] == Record(name, end - start, outcome.TransportOk?)
      && (forall i :: 2 <= i < |c.trace| ==> !c.trace[i].HideLoading?)
      && (forall i :: 3 <= i < |c.trace| ==> c.trace[i].Toast?)
      && c.metrics == RecordNetworkRequestTime(m, name, end - start, outcome.TransportOk?, end)
    // the promise resolves exactly when the envelope exists and reports success;
    // a toast follows exactly when a started transport does not resolve
    ensures c.settlement.Resolved? <==> Succeeds(outcome)
    ensures c.settlement.Resolved? ==> c.settlement.data == outcome.result.value.data && |c.trace| == 3
    ensures !outcome.CloudMissing? && !Succeeds(outcome) ==> |c.trace| == 4
  {
    if outcome.CloudMissing? then
      Call([ShowLoading(LoadingTitle, true)], m, Rejected(ThrownTypeError))
    else
      Call(StartedTrace(name, end - start, outcome.TransportOk?, FailureToast(outcome)),
           RecordNetworkRequestTime(m, name, end - start, outcome.TransportOk?, end),
           Settle(outcome))
  }

  /** How the returned promise settles once the transport has been started. */
  function Settle<D>(outcome: Outcome<D>): (s: Settlement<D>)
    ensures s.Resolved? <==> Succeeds(outcome)
    ensures s.Resolved? ==> s.data == outcome.result.value.data
    ensures outcome.TransportFail? ==> s == Rejected(TransportReason(outcome.error))
    ensures outcome.TransportOk? && !Succeeds(outcome) ==> s == Rejected(CloudReason(RejectionReason(outcome.result)))
    ensures outcome.CloudMissing? ==> s == Rejected(ThrownTypeError)
  {
    match outcome
    case TransportOk(result) =>
      if result.Some? && result.value.success then Resolved(result.value.data)
      else Rejected(CloudReason(RejectionReason(result)))
    case TransportFail(error) => Rejected(TransportReason(error))
    case CloudMissing => Rejected(ThrownTypeError)
  }

  /** The toast shown after the sample is recorded, if any. */
  function FailureToast<D>(outcome: Outcome<D>): (t: Option<string>)
    ensures t.None? <==> Succeeds(outcome) || outcome.CloudMissing?
  {
    match outcome
    case TransportOk(result) =>
      if result.Some? && result.value.success then None
      else Some(HandleCloudError(Some(RejectionReason(result))).toast)
    case TransportFail(error) => Some(HandleNetworkError(Some(error)).toast)
    case CloudMissing => None
  }

  /** The trace of a call whose transport was started: show, hide, record, then at most one toast. */
  function StartedTrace(name: string, elapsed: int, success: bool, toast: Option<string>): (t: seq<Effect>)
    ensures |t| == 3 + (if toast.Some? then 1 else 0)
    ensures t[0] == ShowLoading(LoadingTitle, true) && t[1] == HideLoading
    ensures t[2] == Record(name, elapsed, success)
    ensures toast.Some? ==> t[3] == Toast(toast.value)
    ensures forall i :: 1 <= i < |t| ==> !t[i].ShowLoading?
    ensures forall i :: 2 <= i < |t| ==> !t[i].HideLoading?
    ensures forall i :: 3 <= i < |t| ==> t[i].Toast?
  {
    var shown := [ShowLoading(LoadingTitle, true), HideLoading, Record(name, elapsed, success)];
    if toast.Some? then shown + [Toast(toast.value)] else shown
  }

  /**
   * A rejected call toasts what the matching classifier says: the cloud-error
   * classifier for an envelope that is missing or reports failure, the
   * network-error classifier for a transport failure.
   */
  lemma RejectionToasts<D>(m: Metrics, name: string, start: nat, end: nat, outcome: Outcome<D>)
    requires !Succeeds(outcome)
    ensures var c := CallCloudFunction(m, name, start, end, outcome);
      && (outcome.TransportOk? ==>
        && c.settlement == Rejected(CloudReason(RejectionReason(outcome.result)))
        && c.trace[3] == Toast(HandleCloudError(Some(RejectionReason(outcome.result))).toast))
      && (outcome.TransportFail? ==>
        && c.settlement == Rejected(TransportReason(outcome.error))
        && c.trace[3] == Toast(HandleNetworkError(Some(outcome.error)).toast))
  {
  }

  /**
   * The recorded effect and the metrics agree: the newest sample under `name`
   * is the one the trace reports, every other key is untouched, and the store
   * keeps its invariant.
   */
  lemma TraceMatchesMetrics<D>(m: Metrics, name: string, start: nat, end: nat, outcome: Outcome<D>)
    requires Telemetry.Valid(m)
    ensures var c := CallCloudFunction(m, name, start, end, outcome);
      var log := Log(c.metrics.networkRequestTimes, name);
      && Telemetry.Valid(c.metrics)
      && (outcome.CloudMissing? ==> c.metrics == m)
      && (!outcome.CloudMissing? ==>
        && |log| == Min(|Log(m.networkRequestTimes, name)| + 1, NetworkCap)
        && log[|log| - 1] == RequestSample(c.trace[2].elapsed, c.trace[2].success, end))
      && (forall k :: k != name ==> Log(c.metrics.networkRequestTimes, k) == Log(m.networkRequestTimes, k))
      && c.metrics.pageLoadTimes == m.pageLoadTimes
  {
    if !outcome.CloudMissing? {
      var c := CallCloudFunction(m, name, start, end, outcome);
      assert c.trace[2] == Record(name, end - start, outcome.TransportOk?);
      assert c.metrics == RecordNetworkRequestTime(m, name, end - start, outcome.TransportOk?, end);
    }
  }

  /**
   * A transport that completes but reports failure is still recorded as a
   * success, and with no error in the envelope the call rejects with the
   * generic text and toasts the server-busy message.
   */
  lemma ApplicationFailureRecordedAsSuccess<D>(m: Metrics, name: string, start: nat, end: nat)
    ensures var o: Outcome<D> := TransportOk(Some(Envelope(false, None, None)));
      var c := CallCloudFunction(m, name, start, end, o);
      && c.trace == [ShowLoading(LoadingTitle, true), HideLoading, Record(name, end - start, true), Toast(ServerBusyMessage)]
      && c.settlement == Rejected(CloudReason(ErrorText(OperationFailed)))
  {
    var o: Outcome<D> := TransportOk(Some(Envelope(false, None, None)));
    assert RejectionReason(o.result) == ErrorText(OperationFailed);
    assert HandleCloudError(Some(ErrorText(OperationFailed))).toast == ServerBusyMessage;
  }

  /**
   * A 120 ms successful call of `getUser` resolves with the envelope's data and
   * leaves exactly one successful 120 ms sample under `getUser`.
   */
  lemma SuccessfulCallExample(data: string)
    ensures var c := CallCloudFunction(Initial, "getUser", 1000, 1120, TransportOk(Some(Envelope(true, Some(data), None))));
      && c.settlement == Resolved(Some(data))
      && c.trace == [ShowLoading(LoadingTitle, true), HideLoading, Record("getUser", 120, true)]
      && Log(c.metrics.networkRequestTimes, "getUser") == [RequestSample(120, true, 1120)]
  {
  }
}

=== FILE: errors.dfy ===
/**
 * The three error handlers of app.js (`handleGlobalError`, `handleNetworkError`,
 * `handleCloudError`) as functions from the error value to the message they
 * toast, and `logError`'s bounded error log.
 */
module Errors {
  import opened Wrappers
  import opened Text
  import opened Series

  /** User-facing messages. */
  const GenericMessage: string := "应用发生错误，请重试"
  const NetworkIssueMessage: string := "网络连接异常，请检查网络设置"
  const PermissionMessage: string := "权限不足，请重新登录"
  const ConnectionFailedMessage: string := "网络连接失败，请检查网络设置"
  const TimeoutMessage: string := "网络连接超时，请重试"
  const RequestFailedMessage: string := "网络请求失败，请重试"
  const CancelledMessage: string := "请求被取消"
  const ServerBusyMessage: string := "服务器繁忙，请稍后重试"
  const SystemErrorMessage: string := "系统错误，请稍后重试"
  const NetworkErrorMessage: string := "网络错误，请检查网络连接"

  /** What a handler does: the message it toasts and the value it returns. */
  datatype Handled = Handled(toast: string, returned: bool)

  // ---------------------------------------------------------------- network

  /** A transport failure object; `errMsg` is its diagnostic text, when present. */
  datatype TransportError = TransportError(errMsg: Option<string>)

  /** The diagnostic text, when the error exists and its `errMsg` is truthy. */
  function Diagnostic(error: Option<TransportError>): Option<string> {
    if error.Some? && error.value.errMsg.Some? && error.value.errMsg.value != "" then error.value.errMsg else None
  }

  /**
   * `handleNetworkError(error)`: the first of `timeout`, `fail`, `abort` found in
   * the diagnostic picks the message; otherwise the connection-failed default.
   */
  function HandleNetworkError(error: Option<TransportError>): (r: Handled)
    ensures !r.returned
    ensures r.toast == TimeoutMessage <==>
      Diagnostic(error).Some? && Includes(Diagnostic(error).value, "timeout")
    ensures r.toast == RequestFailedMessage <==>
      Diagnostic(error).Some? && !Includes(Diagnostic(error).value, "timeout") && Includes(Diagnostic(error).value, "fail")
    ensures r.toast == CancelledMessage <==>
      Diagnostic(error).Some? && !Includes(Diagnostic(error).value, "timeout") && !Includes(Diagnostic(error).value, "fail")
      && Includes(Diagnostic(error).value, "abort")
    ensures r.toast == ConnectionFailedMessage <==>
      Diagnostic(error).None?
      || (!Includes(Diagnostic(error).value, "timeout") && !Includes(Diagnostic(error).value, "fail")
          && !Includes(Diagnostic(error).value, "abort"))
  {
    var message :=
      if Diagnostic(error).Some? then
        var text := Diagnostic(error).value;
        if Includes(text, "timeout") then TimeoutMessage
        else if Includes(text, "fail") then RequestFailedMessage
        else if Includes(text, "abort") then CancelledMessage
        else ConnectionFailedMessage
      else ConnectionFailedMessage;
    Handled(message, false)
  }

  /** `timeout` wins over every other word: any diagnostic containing it gets the timeout message. */
  lemma TimeoutBeforeFail(s: string)
    requires Includes(s, "timeout")
    ensures HandleNetworkError(Some(TransportError(Some(s)))).toast == TimeoutMessage
  {
  }

  /** A diagnostic containing both `fail` and `timeout` is classified as a timeout. */
  lemma TimeoutBeforeFailExample()
    ensures HandleNetworkError(Some(TransportError(Some("request:fail timeout")))).toast == TimeoutMessage
  {
    assert OccursAt("request:fail timeout", "timeout", 13);
    IncludesIffOccurs("request:fail timeout", "timeout");
  }

  lemma FailAbortText()
    ensures !Includes("request:fail abort", "timeout") && Includes("request:fail abort", "fail")
  {
    NotIncludes("request:fail abort", "timeout");
    FailAbortHasFail();
  }

  lemma FailAbortHasFail()
    ensures Includes("request:fail abort", "fail")
  {
    assert OccursAt("request:fail abort", "fail", 8);
    IncludesIffOccurs("request:fail abort", "fail");
  }

  /** Without `timeout`, `fail` wins over `abort`: such a diagnostic gets the request-failed message. */
  lemma FailBeforeAbort(s: string)
    requires !Includes(s, "timeout") && Includes(s, "fail") && Includes(s, "abort")
    ensures HandleNetworkError(Some(TransportError(Some(s)))).toast == RequestFailedMessage
  {
  }

  /** `request:fail abort` gets the request-failed message, not the cancelled one. */
  lemma FailBeforeAbortExample()
    ensures HandleNetworkError(Some(TransportError(Some("request:fail abort")))).toast == RequestFailedMessage
  {
    FailAbortText();
  }

  lemma AbortedText()
    ensures !Includes("aborted", "timeout") && !Includes("aborted", "fail") && Includes("aborted", "abort")
  {
    NotIncludes("aborted", "timeout");
    NotIncludes("aborted", "fail");
    assert OccursAt("aborted", "abort", 0);
    IncludesIffOccurs("aborted", "abort");
  }

  lemma UnknownText()
    ensures !Includes("unknown", "timeout") && !Includes("unknown", "fail") && !Includes("unknown", "abort")
  {
    NotIncludes("unknown", "timeout");
    NotIncludes("unknown", "fail");
    NotIncludes("unknown", "abort");
  }

  /** A cancelled request, an unrecognised diagnostic and a missing one. */
  lemma NetworkErrorExamples()
    ensures HandleNetworkError(Some(TransportError(Some("aborted")))).toast == CancelledMessage
    ensures HandleNetworkError(Some(TransportError(Some("unknown")))).toast == ConnectionFailedMessage
    ensures HandleNetworkError(Some(TransportError(Some("")))).toast == ConnectionFailedMessage
    ensures HandleNetworkError(Some(TransportError(None))).toast == ConnectionFailedMessage
    ensures HandleNetworkError(None).toast == ConnectionFailedMessage
  {
    AbortedText();
    UnknownText();
  }

  // ------------------------------------------------------------------ cloud

  /**
   * What a cloud call rejects with: a plain text reason, or an object with an
   * optional numeric `errCode` and an optional `errMsg`.
   */
  datatype CloudError =
    | ErrorText(text: string)
    | ErrorObject(errCode: Option<int>, errMsg: Option<string>)

  /** The error's `errCode` when the error exists and the code is truthy (non-zero). */
  function TruthyCode(error: Option<CloudError>): Option<int> {
    if error.Some? && error.value.ErrorObject? && error.value.errCode.Some? && error.value.errCode.value != 0
    then error.value.errCode else None
  }

  /** `handleCloudError(error)`: a switch on the truthy `errCode`, defaulting to the server-busy text. */
  function HandleCloudError(error: Option<CloudError>): (r: Handled)
    ensures !r.returned
    ensures TruthyCode(error).None? ==> r.toast == ServerBusyMessage
    ensures TruthyCode(error) == Some(-1) ==> r.toast == SystemErrorMessage
    ensures TruthyCode(error) == Some(-2) ==> r.toast == NetworkErrorMessage
    ensures TruthyCode(error) == Some(87009) ==> r.toast == PermissionMessage
    ensures TruthyCode(error).Some? && TruthyCode(error).value !in {-1, -2, 87009} ==>
      r.toast == if error.value.errMsg.Some? && error.value.errMsg.value != "" then error.value.errMsg.value else ServerBusyMessage
    ensures r.toast != "" && (r.toast == ServerBusyMessage || r.toast == SystemErrorMessage || r.toast == NetworkErrorMessage
             || r.toast == PermissionMessage || (error.Some? && error.value.ErrorObject? && error.value.errMsg == Some(r.toast)))
  {
    var message :=
      if TruthyCode(error).Some? then
        match TruthyCode(error).value
        case -1 => SystemErrorMessage
        case -2 => NetworkErrorMessage
        case 87009 => PermissionMessage
        case _ => if error.value.errMsg.Some? && error.value.errMsg.value != "" then error.value.errMsg.value else ServerBusyMessage
      else ServerBusyMessage;
    Handled(message, false)
  }

  /** A plain text reason never carries a code, so it always gets the server-busy text. */
  lemma TextReasonIsServerBusy(text: string)
    ensures HandleCloudError(Some(ErrorText(text))).toast == ServerBusyMessage
  {
  }

  /** Sample codes: known codes win, otherwise `errMsg` when non-empty. */
  lemma CloudErrorExamples()
    ensures HandleCloudError(Some(ErrorObject(Some(-2), Some("x")))).toast == NetworkErrorMessage
    ensures HandleCloudError(Some(ErrorObject(Some(87009), None))).toast == PermissionMessage
    ensures HandleCloudError(Some(ErrorObject(Some(999), Some("custom msg")))).toast == "custom msg"
    ensures HandleCloudError(Some(ErrorObject(Some(999), Some("")))).toast == ServerBusyMessage
    ensures HandleCloudError(Some(ErrorObject(Some(0), Some("custom msg")))).toast == ServerBusyMessage
  {
  }

  // ----------------------------------------------------------------- global

  /** A value thrown at the application: a string, another object (by its `toString()`), or null/undefined. */
  datatype ErrorValue =
    | StringError(s: string)
    | ObjectError(text: string)
    | NullishError

  /** The message `handleGlobalError` toasts: `network` is checked before `permission`, for strings only. */
  function GlobalErrorMessage(error: ErrorValue): (msg: string)
    ensures !error.StringError? ==> msg == GenericMessage
    ensures error.StringError? && Includes(error.s, "network") ==> msg == NetworkIssueMessage
    ensures error.StringError? && !Includes(error.s, "network") && Includes(error.s, "permission") ==> msg == PermissionMessage
    ensures error.StringError? && !Includes(error.s, "network") && !Includes(error.s, "permission") ==> msg == GenericMessage
  {
    match error
    case StringError(s) =>
      if Includes(s, "network") then NetworkIssueMessage
      else if Includes(s, "permission") then PermissionMessage
      else GenericMessage
    case _ => GenericMessage
  }

  /** One entry of the stored error log. */
  datatype ErrorLogEntry = ErrorLogEntry(error: string, timestamp: nat, userAgent: string, version: string)

  const ErrorLogCap: nat := 50
  const AppVersion: string := "1.0.0"

  /** `systemInfo?.system || 'unknown'`. */
  function UserAgent(system: Option<string>): string {
    if system.Some? && system.value != "" then system.value else "unknown"
  }

  /** The entry `logError` would append for `error`, for errors that can be converted to text. */
  function Entry(error: ErrorValue, now: nat, system: Option<string>): ErrorLogEntry
    requires !error.NullishError?
  {
    ErrorLogEntry(if error.StringError? then error.s else error.text, now, UserAgent(system), AppVersion)
  }

  /**
   * `logError(error)` over the stored log `stored` (absent storage reads as
   * empty), the clock reading `now` and the host's system name. Converting a
   * null or undefined error throws, and the `catch` leaves the log as it was.
   */
  function LogError(stored: seq<ErrorLogEntry>, error: ErrorValue, now: nat, system: Option<string>): (r: seq<ErrorLogEntry>)
    ensures error.NullishError? ==> r == stored
    ensures !error.NullishError? ==>
      && |r| == Min(|stored| + 1, ErrorLogCap)
      && r == KeepLast(stored + [Entry(error, now, system)], ErrorLogCap)
      && r[|r| - 1].error == (if error.StringError? then error.s else error.text)
      && r[|r| - 1].timestamp == now
  {
    if error.NullishError? then stored else KeepLast(stored + [Entry(error, now, system)], ErrorLogCap)
  }

  datatype GlobalHandled = GlobalHandled(toast: string, errorLogs: seq<ErrorLogEntry>)

  /** `handleGlobalError(error)`: toast the classified message, then log the error. */
  function HandleGlobalError(stored: seq<ErrorLogEntry>, error: ErrorValue, now: nat, system: Option<string>): (r: GlobalHandled)
    ensures r.toast == NetworkIssueMessage <==> error.StringError? && Includes(error.s, "network")
    ensures r.toast == PermissionMessage <==>
      error.StringError? && !Includes(error.s, "network") && Includes(error.s, "permission")
    ensures r.toast == GenericMessage <==>
      !error.StringError? || (!Includes(error.s, "network") && !Includes(error.s, "permission"))
    ensures error.NullishError? ==> r.errorLogs == stored
    ensures !error.NullishError? ==>
      && |r.errorLogs| == Min(|stored| + 1, ErrorLogCap)
      && r.errorLogs[|r.errorLogs| - 1] == Entry(error, now, system)
      && r.errorLogs[..|r.errorLogs| - 1] == KeepLast(stored, ErrorLogCap - 1)
  {
    GlobalHandled(GlobalErrorMessage(error), LogError(stored, error, now, system))
  }

  /**
   * A string containing `network` gets the network message whatever else it
   * names; a non-string never does, whatever its text.
   */
  lemma NetworkBeforePermission(s: string)
    requires Includes(s, "network")
    ensures GlobalErrorMessage(StringError(s)) == NetworkIssueMessage
    ensures GlobalErrorMessage(ObjectError(s)) == GenericMessage
  {
  }

  /** A string naming both problems gets the network message. */
  lemma NetworkBeforePermissionExample()
    ensures GlobalErrorMessage(StringError("network permission")) == NetworkIssueMessage
    ensures GlobalErrorMessage(ObjectError("network")) == GenericMessage
  {
    assert OccursAt("network permission", "network", 0);
    IncludesIffOccurs("network permission", "network");
  }

  /** One call of `logError`: the value passed and the clock reading it takes. */
  datatype Logged = Logged(error: ErrorValue, at: nat)

  /** Call `logError` once for each element of `calls`, in order. */
  function LogErrors(stored: seq<ErrorLogEntry>, calls: seq<Logged>, system: Option<string>): seq<ErrorLogEntry>
    decreases |calls|
  {
    if calls == [] then stored else LogErrors(LogError(stored, calls[0].error, calls[0].at, system), calls[1..], system)
  }

  /** The entries one call appends: none for a null or undefined error. */
  function Appended(c: Logged, system: Option<string>): seq<ErrorLogEntry> {
    if c.error.NullishError? then [] else [Entry(c.error, c.at, system)]
  }

  /** The entries those calls append, in order. */
  function Entries(calls: seq<Logged>, system: Option<string>): seq<ErrorLogEntry>
  {
    if calls == [] then [] else Appended(calls[0], system) + Entries(calls[1..], system)
  }

  /** One call keeps a log of at most 50 entries at most 50 long, and windows what it appends. */
  lemma LogErrorStep(stored: seq<ErrorLogEntry>, c: Logged, system: Option<string>)
    requires |stored| <= ErrorLogCap
    ensures LogError(stored, c.error, c.at, system) == KeepLast(stored + Appended(c, system), ErrorLogCap)
    ensures |LogError(stored, c.error, c.at, system)| <= ErrorLogCap
  {
    if c.error.NullishError? {
      assert stored + Appended(c, system) == stored;
    }
  }

  /**
   * However many errors are logged, starting from a log `logError` itself
   * wrote (at most 50 entries), the log holds the newest 50 entries, oldest first.
   */
  lemma {:induction false} ErrorLogKeepsNewest(stored: seq<ErrorLogEntry>, calls: seq<Logged>, system: Option<string>)
    requires |stored| <= ErrorLogCap
    ensures LogErrors(stored, calls, system) == KeepLast(stored + Entries(calls, system), ErrorLogCap)
    decreases |calls|
  {
    if calls == [] {
      assert stored + Entries(calls, system) == stored;
    } else {
      var next := LogError(stored, calls[0].error, calls[0].at, system);
      LogErrorStep(stored, calls[0], system);
      ErrorLogKeepsNewest(next, calls[1..], system);
      WindowThenAppend(stored, Appended(calls[0], system), Entries(calls[1..], system), next, ErrorLogCap);
    }
  }
}

=== FILE: interceptors.dfy ===
/**
 * The recording effect of the two wrappers installed by
 * `monitorPagePerformance` and `monitorNetworkPerformance`: a page records its
 * load time when it becomes ready, and a request records its duration when
 * either of its callbacks fires. The wrapped callbacks themselves pass
 * through unchanged and are not modelled.
 */
module Interceptors {
  import opened Wrappers
  import opened Series
  import opened Telemetry

  /** The part of a page instance the wrapper touches: its route and `_pageLoadStart`. */
  datatype PageInstance = PageInstance(route: string, pageLoadStart: Option<nat>)

  /** The wrapped `onLoad`: remember when loading started. */
  function OnLoad(page: PageInstance, now: nat): (p: PageInstance)
    ensures p.route == page.route && p.pageLoadStart == Some(now)
  {
    page.(pageLoadStart := Some(now))
  }

  /**
   * `Date.now() - (this._pageLoadStart || Date.now())`: the elapsed load time,
   * or 0 when no (truthy) start was remembered.
   */
  function LoadTime(page: PageInstance, now: nat): (t: int)
    ensures page.pageLoadStart.Some? && page.pageLoadStart.value != 0 ==> t == now - page.pageLoadStart.value
    ensures page.pageLoadStart.None? || page.pageLoadStart.value == 0 ==> t == 0
  {
    if page.pageLoadStart.Some? && page.pageLoadStart.value != 0 then now - page.pageLoadStart.value else 0
  }

  /** The wrapped `onReady`: record the load time under the page's route. */
  function OnReady(m: Metrics, page: PageInstance, now: nat): (r: Metrics)
    ensures Log(r.pageLoadTimes, page.route) == KeepLast(Log(m.pageLoadTimes, page.route) + [PageSample(LoadTime(page, now), now)], PageCap)
    ensures |Log(r.pageLoadTimes, page.route)| == Min(|Log(m.pageLoadTimes, page.route)| + 1, PageCap)
    ensures Log(r.pageLoadTimes, page.route)[|Log(r.pageLoadTimes, page.route)| - 1] == PageSample(LoadTime(page, now), now)
    ensures forall k :: k != page.route ==> Log(r.pageLoadTimes, k) == Log(m.pageLoadTimes, k)
    ensures r.pageLoadTimes.keys == if page.route in m.pageLoadTimes.logs then m.pageLoadTimes.keys else m.pageLoadTimes.keys + [page.route]
    ensures r.networkRequestTimes == m.networkRequestTimes
    ensures r.launchTime == m.launchTime && r.memoryUsage == m.memoryUsage && r.cacheHitRate == m.cacheHitRate
    ensures Valid(m) ==> Valid(r)
  {
    RecordPageLoadTime(m, page.route, LoadTime(page, now), now)
  }

  /** A page loaded at `loaded` and ready at `ready` records `ready - loaded` under its route. */
  lemma PageLifecycleRecordsElapsed(m: Metrics, page: PageInstance, loaded: nat, ready: nat)
    requires loaded > 0
    ensures var r := OnReady(m, OnLoad(page, loaded), ready);
      && Log(r.pageLoadTimes, page.route)[|Log(r.pageLoadTimes, page.route)| - 1] == PageSample(ready - loaded, ready)
      && r.networkRequestTimes == m.networkRequestTimes
  {
  }

  /** The wrapped request `success` callback: record the duration under the URL as a success. */
  function OnRequestSuccess(m: Metrics, url: string, requestStart: nat, now: nat): (r: Metrics)
    ensures Log(r.networkRequestTimes, url) == KeepLast(Log(m.networkRequestTimes, url) + [RequestSample(now - requestStart, true, now)], NetworkCap)
    ensures |Log(r.networkRequestTimes, url)| == Min(|Log(m.networkRequestTimes, url)| + 1, NetworkCap)
    ensures Log(r.networkRequestTimes, url)[|Log(r.networkRequestTimes, url)| - 1] == RequestSample(now - requestStart, true, now)
    ensures forall k :: k != url ==> Log(r.networkRequestTimes, k) == Log(m.networkRequestTimes, k)
    ensures r.networkRequestTimes.keys == if url in m.networkRequestTimes.logs then m.networkRequestTimes.keys else m.networkRequestTimes.keys + [url]
    ensures r.pageLoadTimes == m.pageLoadTimes
    ensures r.launchTime == m.launchTime && r.memoryUsage == m.memoryUsage && r.cacheHitRate == m.cacheHitRate
    ensures Valid(m) ==> Valid(r)
  {
    RecordNetworkRequestTime(m, url, now - requestStart, true, now)
  }

  /** The wrapped request `fail` callback: record the duration under the URL as a failure. */
  function OnRequestFail(m: Metrics, url: string, requestStart: nat, now: nat): (r: Metrics)
    ensures Log(r.networkRequestTimes, url) == KeepLast(Log(m.networkRequestTimes, url) + [RequestSample(now - requestStart, false, now)], NetworkCap)
    ensures |Log(r.networkRequestTimes, url)| == Min(|Log(m.networkRequestTimes, url)| + 1, NetworkCap)
    ensures Log(r.networkRequestTimes, url)[|Log(r.networkRequestTimes, url)| - 1] == RequestSample(now - requestStart, false, now)
    ensures forall k :: k != url ==> Log(r.networkRequestTimes, k) == Log(m.networkRequestTimes, k)
    ensures r.networkRequestTimes.keys == if url in m.networkRequestTimes.logs then m.networkRequestTimes.keys else m.networkRequestTimes.keys + [url]
    ensures r.pageLoadTimes == m.pageLoadTimes
    ensures r.launchTime == m.launchTime && r.memoryUsage == m.memoryUsage && r.cacheHitRate == m.cacheHitRate
    ensures Valid(m) ==> Valid(r)
  {
    RecordNetworkRequestTime(m, url, now - requestStart, false, now)
  }
}

=== FILE: recommendations.dfy ===
/** `getOptimizationRecommendations()`: four independent threshold rules over a performance report. */
module Recommendations {
  import opened Series
  import opened Telemetry

  datatype Kind = Launch | Page | Network | Memory

  datatype Priority = High | Medium

  /**
   * What a recommendation says. The per-key rules name the key and its mean;
   * the rendering of that mean with `toFixed(0)` is not modelled.
   */
  datatype Message =
    | LaunchAdvice
    | MemoryAdvice
    | Slow(subject: string, mean: Avg)

  datatype Recommendation = Recommendation(kind: Kind, priority: Priority, message: Message)

  /** Thresholds; every rule compares strictly. */
  const LaunchThreshold: int := 3000
  const PageThreshold: int := 2000
  const NetworkThreshold: int := 5000
  const MemoryThreshold: int := 50 * 1024 * 1024

  const LaunchRecommendation := Recommendation(Launch, High, LaunchAdvice)
  const MemoryRecommendation := Recommendation(Memory, Medium, MemoryAdvice)

  /** Position of each rule in the output. */
  function Rank(k: Kind): nat {
    match k
    case Launch => 0
    case Page => 1
    case Network => 2
    case Memory => 3
  }

  /** `a` can be obtained from `b` by deleting elements. */
  predicate Subsequence<T(==)>(a: seq<T>, b: seq<T>)
    decreases |b|
  {
    a == [] || (b != [] && ((a[0] == b[0] && Subsequence(a[1..], b[1..])) || Subsequence(a, b[1..])))
  }

  /** The keys, in enumeration order, whose average exceeds `threshold`. */
  function SlowKeys(keys: seq<string>, avg: map<string, Avg>, threshold: int): (r: seq<string>)
    ensures forall k :: k in r <==> k in keys && k in avg && avg[k].Exceeds(threshold)
  {
    if keys == [] then []
    else if keys[0] in avg && avg[keys[0]].Exceeds(threshold) then [keys[0]] + SlowKeys(keys[1..], avg, threshold)
    else SlowKeys(keys[1..], avg, threshold)
  }

  /** The selection keeps enumeration order: it is the key list with some keys deleted. */
  lemma {:induction false} SlowKeysInOrder(keys: seq<string>, avg: map<string, Avg>, threshold: int)
    ensures Subsequence(SlowKeys(keys, avg, threshold), keys)
    decreases |keys|
  {
    if keys != [] {
      SlowKeysInOrder(keys[1..], avg, threshold);
    }
  }

  /** The set of enumerated keys whose average exceeds `threshold`. */
  ghost function SlowSet(keys: seq<string>, avg: map<string, Avg>, threshold: int): set<string> {
    set k | k in keys && k in avg && avg[k].Exceeds(threshold)
  }

  /** Peeling the first key off the enumeration peels it off the slow set. */
  lemma SlowSetStep(keys: seq<string>, avg: map<string, Avg>, threshold: int)
    requires keys != []
    ensures keys[0] in avg && avg[keys[0]].Exceeds(threshold) ==>
      SlowSet(keys, avg, threshold) == {keys[0]} + SlowSet(keys[1..], avg, threshold)
    ensures !(keys[0] in avg && avg[keys[0]].Exceeds(threshold)) ==>
      SlowSet(keys, avg, threshold) == SlowSet(keys[1..], avg, threshold)
  {
    var tail := keys[1..];
    forall k | k in keys && k != keys[0] ensures k in tail {
      var i :| 0 <= i < |keys| && keys[i] == k;
      assert tail[i - 1] == k;
    }
    forall k | k in tail ensures k in keys {
      var i :| 0 <= i < |tail| && tail[i] == k;
      assert keys[i + 1] == k;
    }
  }

  /** With each key listed once, one slow key is one entry. */
  lemma {:induction false} SlowKeysCount(keys: seq<string>, avg: map<string, Avg>, threshold: int)
    requires Distinct(keys)
    ensures |SlowKeys(keys, avg, threshold)| == |SlowSet(keys, avg, threshold)|
  {
    if keys != [] {
      var tail := keys[1..];
      assert Distinct(tail) by {
        forall i, j | 0 <= i < j < |tail| ensures tail[i] != tail[j] {
          assert tail[i] == keys[i + 1] && tail[j] == keys[j + 1];
        }
      }
      SlowKeysCount(tail, avg, threshold);
      assert keys[0] !in tail by {
        forall i | 0 <= i < |tail| ensures tail[i] != keys[0] {
          assert tail[i] == keys[i + 1];
        }
      }
      SlowSetStep(keys, avg, threshold);
      assert keys[0] !in SlowSet(tail, avg, threshold);
    }
  }

  /** One `kind`/`priority` entry for each key whose average exceeds `threshold`, in key order. */
  function KeyRule(keys: seq<string>, avg: map<string, Avg>, threshold: int, kind: Kind, priority: Priority): (r: seq<Recommendation>)
    ensures |r| == |SlowKeys(keys, avg, threshold)|
    ensures forall i :: 0 <= i < |r| ==>
      && SlowKeys(keys, avg, threshold)[i] in avg
      && r[i] == Recommendation(kind, priority, Slow(SlowKeys(keys, avg, threshold)[i], avg[SlowKeys(keys, avg, threshold)[i]]))
  {
    if keys == [] then []
    else
      var rest := KeyRule(keys[1..], avg, threshold, kind, priority);
      if keys[0] in avg && avg[keys[0]].Exceeds(threshold) then
        [Recommendation(kind, priority, Slow(keys[0], avg[keys[0]]))] + rest
      else rest
  }

  /** Some entry of `recs` is of `kind` and is about `k`. */
  predicate Advises(recs: seq<Recommendation>, kind: Kind, k: string) {
    exists i :: 0 <= i < |recs| && recs[i].kind == kind && recs[i].message.Slow? && recs[i].message.subject == k
  }

  /** Some entry of `recs` is of `kind`. */
  predicate HasKind(recs: seq<Recommendation>, kind: Kind) {
    exists i :: 0 <= i < |recs| && recs[i].kind == kind
  }

  function Count(b: bool): nat {
    if b then 1 else 0
  }

  /** Entries appear in rule order: launch, pages, requests, memory. */
  predicate Ordered(recs: seq<Recommendation>) {
    forall i, j :: 0 <= i < j < |recs| ==> Rank(recs[i].kind) <= Rank(recs[j].kind)
  }

  predicate RanksWithin(recs: seq<Recommendation>, lo: nat, hi: nat) {
    forall i :: 0 <= i < |recs| ==> lo <= Rank(recs[i].kind) <= hi
  }

  lemma ConcatHasKind(x: seq<Recommendation>, y: seq<Recommendation>, kind: Kind)
    ensures HasKind(x + y, kind) <==> HasKind(x, kind) || HasKind(y, kind)
  {
    var xy := x + y;
    if HasKind(xy, kind) {
      var i :| 0 <= i < |xy| && xy[i].kind == kind;
      if i >= |x| { assert y[i - |x|] == xy[i]; }
    }
    if HasKind(x, kind) {
      var i :| 0 <= i < |x| && x[i].kind == kind;
      assert xy[i] == x[i];
    }
    if HasKind(y, kind) {
      var i :| 0 <= i < |y| && y[i].kind == kind;
      assert xy[|x| + i] == y[i];
    }
  }

  lemma ConcatAdvises(x: seq<Recommendation>, y: seq<Recommendation>, kind: Kind)
    ensures forall k :: Advises(x + y, kind, k) <==> Advises(x, kind, k) || Advises(y, kind, k)
  {
    var xy := x + y;
    forall k | Advises(xy, kind, k) ensures Advises(x, kind, k) || Advises(y, kind, k) {
      var i :| 0 <= i < |xy| && xy[i].kind == kind && xy[i].message.Slow? && xy[i].message.subject == k;
      if i >= |x| { assert y[i - |x|] == xy[i]; }
    }
    forall k | Advises(x, kind, k) ensures Advises(xy, kind, k) {
      var i :| 0 <= i < |x| && x[i].kind == kind && x[i].message.Slow? && x[i].message.subject == k;
      assert xy[i] == x[i];
    }
    forall k | Advises(y, kind, k) ensures Advises(xy, kind, k) {
      var i :| 0 <= i < |y| && y[i].kind == kind && y[i].message.Slow? && y[i].message.subject == k;
      assert xy[|x| + i] == y[i];
    }
  }

  /** Two ordered runs whose ranks meet at `mid` concatenate to an ordered run. */
  lemma ConcatOrdered(x: seq<Recommendation>, y: seq<Recommendation>, lo: nat, mid: nat, hi: nat)
    requires lo <= mid <= hi
    requires Ordered(x) && Ordered(y) && RanksWithin(x, lo, mid) && RanksWithin(y, mid, hi)
    ensures Ordered(x + y) && RanksWithin(x + y, lo, hi)
  {
    var xy := x + y;
    forall i, j | 0 <= i < j < |xy| ensures Rank(xy[i].kind) <= Rank(xy[j].kind) {
      if j < |x| {
      } else if i >= |x| {
        assert xy[i] == y[i - |x|] && xy[j] == y[j - |x|];
      } else {
        assert xy[j] == y[j - |x|];
      }
    }
    forall i | 0 <= i < |xy| ensures lo <= Rank(xy[i].kind) <= hi {
      if i >= |x| { assert xy[i] == y[i - |x|]; }
    }
  }

  /** A per-key rule yields entries of its own kind only. */
  lemma KeyRuleKinds(keys: seq<string>, avg: map<string, Avg>, threshold: int, kind: Kind, priority: Priority)
    ensures var r := KeyRule(keys, avg, threshold, kind, priority);
      && Ordered(r) && RanksWithin(r, Rank(kind), Rank(kind))
      && (forall other :: HasKind(r, other) ==> other == kind)
      && (forall other, k :: Advises(r, other, k) ==> other == kind)
  {
  }

  /** A per-key rule advises about exactly the slow keys. */
  lemma KeyRuleAdvises(keys: seq<string>, avg: map<string, Avg>, threshold: int, kind: Kind, priority: Priority)
    ensures forall k :: Advises(KeyRule(keys, avg, threshold, kind, priority), kind, k) <==> k in SlowKeys(keys, avg, threshold)
  {
    var r := KeyRule(keys, avg, threshold, kind, priority);
    var s := SlowKeys(keys, avg, threshold);
    forall k | k in s ensures Advises(r, kind, k) {
      var j :| 0 <= j < |s| && s[j] == k;
      assert r[j].message.subject == k;
    }
    forall k | Advises(r, kind, k) ensures k in s {
      var i :| 0 <= i < |r| && r[i].kind == kind && r[i].message.Slow? && r[i].message.subject == k;
      assert s[i] == k;
    }
  }

  /** A rule that emits at most one fixed entry. */
  lemma SingleFacts(part: seq<Recommendation>, fires: bool, rec: Recommendation)
    requires part == if fires then [rec] else []
    requires rec.message.Slow? == false
    ensures forall kind :: HasKind(part, kind) <==> fires && kind == rec.kind
    ensures forall kind, k :: !Advises(part, kind, k)
  {
    if fires {
      assert part[0].kind == rec.kind;
    }
  }

  lemma SingleOrdered(part: seq<Recommendation>, rec: Recommendation)
    requires |part| <= 1 && forall i :: 0 <= i < |part| ==> part[i] == rec
    ensures Ordered(part) && RanksWithin(part, Rank(rec.kind), Rank(rec.kind))
  {
  }

  /** The launch rule: one fixed entry when the launch took longer than the threshold. */
  function LaunchRule(report: Report): seq<Recommendation> {
    if report.launchTime > LaunchThreshold then [LaunchRecommendation] else []
  }

  /** The memory rule: one fixed entry when memory use is above the threshold. */
  function MemoryRule(report: Report): seq<Recommendation> {
    if report.memoryUsage > MemoryThreshold then [MemoryRecommendation] else []
  }

  function PageRule(report: Report): seq<Recommendation> {
    KeyRule(report.avgPageLoadTimes.keys, report.avgPageLoadTimes.avg, PageThreshold, Page, Medium)
  }

  function NetworkRule(report: Report): seq<Recommendation> {
    KeyRule(report.avgNetworkTimes.keys, report.avgNetworkTimes.avg, NetworkThreshold, Network, High)
  }

  /** The routes whose mean load time is above the page threshold, in enumeration order. */
  function SlowRoutes(report: Report): seq<string> {
    SlowKeys(report.avgPageLoadTimes.keys, report.avgPageLoadTimes.avg, PageThreshold)
  }

  /** The request keys whose mean duration is above the network threshold, in enumeration order. */
  function SlowRequests(report: Report): seq<string> {
    SlowKeys(report.avgNetworkTimes.keys, report.avgNetworkTimes.avg, NetworkThreshold)
  }

  /** Where each of four concatenated runs starts. */
  lemma ConcatIndex<T>(a: seq<T>, b: seq<T>, c: seq<T>, d: seq<T>)
    ensures |a + b + c + d| == |a| + |b| + |c| + |d|
    ensures forall i :: 0 <= i < |a| ==> (a + b + c + d)[i] == a[i]
    ensures forall i :: 0 <= i < |b| ==> (a + b + c + d)[|a| + i] == b[i]
    ensures forall i :: 0 <= i < |c| ==> (a + b + c + d)[|a| + |b| + i] == c[i]
    ensures forall i :: 0 <= i < |d| ==> (a + b + c + d)[|a| + |b| + |c| + i] == d[i]
  {
  }

  /** The `i`-th element of the middle run of three. */
  lemma SecondRunAt<T>(a: seq<T>, b: seq<T>, c: seq<T>, i: nat)
    requires i < |b|
    ensures (a + b + c)[|a| + i] == b[i]
  {
  }

  /** The `i`-th element of the second run of four. */
  lemma SecondOfFourAt<T>(a: seq<T>, b: seq<T>, c: seq<T>, d: seq<T>, i: nat)
    requires i < |b|
    ensures (a + b + c + d)[|a| + i] == b[i]
  {
    SecondRunAt(a, b, c, i);
  }

  /**
   * The four rules, all evaluated, concatenated in rule order: the launch entry,
   * one medium entry per slow route and one high entry per slow request key,
   * each with its key's mean, then the memory entry.
   */
  function Recommend(report: Report): (recs: seq<Recommendation>)
    ensures |recs| == Count(report.launchTime > LaunchThreshold) + |SlowRoutes(report)| + |SlowRequests(report)|
                    + Count(report.memoryUsage > MemoryThreshold)
    ensures report.launchTime > LaunchThreshold ==> recs[0] == LaunchRecommendation
    ensures forall i :: 0 <= i < |SlowRoutes(report)| ==>
      && SlowRoutes(report)[i] in report.avgPageLoadTimes.avg
      && recs[Count(report.launchTime > LaunchThreshold) + i]
         == Recommendation(Page, Medium, Slow(SlowRoutes(report)[i], report.avgPageLoadTimes.avg[SlowRoutes(report)[i]]))
    ensures forall i :: 0 <= i < |SlowRequests(report)| ==>
      && SlowRequests(report)[i] in report.avgNetworkTimes.avg
      && recs[Count(report.launchTime > LaunchThreshold) + |SlowRoutes(report)| + i]
         == Recommendation(Network, High, Slow(SlowRequests(report)[i], report.avgNetworkTimes.avg[SlowRequests(report)[i]]))
    ensures report.memoryUsage > MemoryThreshold ==> recs[|recs| - 1] == MemoryRecommendation
  {
    EndsLayout(report);
    RoutesLayout(report);
    RequestsLayout(report);
    LaunchRule(report) + PageRule(report) + NetworkRule(report) + MemoryRule(report)
  }

  /** The length of the concatenated rules, and the fixed entries at both ends. */
  lemma EndsLayout(report: Report)
    ensures var recs := LaunchRule(report) + PageRule(report) + NetworkRule(report) + MemoryRule(report);
      && |recs| == Count(report.launchTime > LaunchThreshold) + |SlowRoutes(report)| + |SlowRequests(report)|
                   + Count(report.memoryUsage > MemoryThreshold)
      && (report.launchTime > LaunchThreshold ==> recs[0] == LaunchRecommendation)
      && (report.memoryUsage > MemoryThreshold ==> recs[|recs| - 1] == MemoryRecommendation)
  {
    var launch, pages, requests, memory := LaunchRule(report), PageRule(report), NetworkRule(report), MemoryRule(report);
    ConcatIndex(launch, pages, requests, memory);
    if report.memoryUsage > MemoryThreshold {
      assert (launch + pages + requests + memory)[|launch| + |pages| + |requests| + 0] == memory[0];
    }
  }

  /** The page entries follow the launch entry, one per slow route, in order. */
  lemma RoutesLayout(report: Report)
    ensures var recs := LaunchRule(report) + PageRule(report) + NetworkRule(report) + MemoryRule(report);
      forall i :: 0 <= i < |SlowRoutes(report)| ==>
        && SlowRoutes(report)[i] in report.avgPageLoadTimes.avg
        && recs[Count(report.launchTime > LaunchThreshold) + i]
           == Recommendation(Page, Medium, Slow(SlowRoutes(report)[i], report.avgPageLoadTimes.avg[SlowRoutes(report)[i]]))
  {
    forall i | 0 <= i < |SlowRoutes(report)| {
      RouteAt(report, i);
    }
  }

  lemma RouteAt(report: Report, i: nat)
    requires i < |SlowRoutes(report)|
    ensures SlowRoutes(report)[i] in report.avgPageLoadTimes.avg
    ensures (LaunchRule(report) + PageRule(report) + NetworkRule(report) + MemoryRule(report))[Count(report.launchTime > LaunchThreshold) + i]
            == Recommendation(Page, Medium, Slow(SlowRoutes(report)[i], report.avgPageLoadTimes.avg[SlowRoutes(report)[i]]))
  {
    var launch, pages := LaunchRule(report), PageRule(report);
    assert |launch| == Count(report.launchTime > LaunchThreshold);
    assert |pages| == |SlowRoutes(report)|;
    SecondOfFourAt(launch, pages, NetworkRule(report), MemoryRule(report), i);
  }

  /** The network entries follow the page entries, one per slow request key, in order. */
  lemma RequestsLayout(report: Report)
    ensures var recs := LaunchRule(report) + PageRule(report) + NetworkRule(report) + MemoryRule(report);
      forall i :: 0 <= i < |SlowRequests(report)| ==>
        && SlowRequests(report)[i] in report.avgNetworkTimes.avg
        && recs[Count(report.launchTime > LaunchThreshold) + |SlowRoutes(report)| + i]
           == Recommendation(Network, High, Slow(SlowRequests(report)[i], report.avgNetworkTimes.avg[SlowRequests(report)[i]]))
  {
    forall i | 0 <= i < |SlowRequests(report)| {
      RequestAt(report, i);
    }
  }

  lemma RequestAt(report: Report, i: nat)
    requires i < |SlowRequests(report)|
    ensures SlowRequests(report)[i] in report.avgNetworkTimes.avg
    ensures (LaunchRule(report) + PageRule(report) + NetworkRule(report) + MemoryRule(report))[Count(report.launchTime > LaunchThreshold) + |SlowRoutes(report)| + i]
            == Recommendation(Network, High, Slow(SlowRequests(report)[i], report.avgNetworkTimes.avg[SlowRequests(report)[i]]))
  {
    var front, requests := LaunchRule(report) + PageRule(report), NetworkRule(report);
    assert |front| == Count(report.launchTime > LaunchThreshold) + |SlowRoutes(report)|;
    assert |requests| == |SlowRequests(report)|;
    SecondRunAt(front, requests, MemoryRule(report), i);
  }

  /**
   * What the layout implies: entries come in rule order, the fixed entries
   * appear exactly when their rule fires, and the per-key entries name exactly
   * the slow keys.
   */
  lemma RecommendFacts(report: Report)
    ensures var recs := Recommend(report);
      && Ordered(recs)
      && (HasKind(recs, Launch) <==> report.launchTime > LaunchThreshold)
      && (HasKind(recs, Memory) <==> report.memoryUsage > MemoryThreshold)
      && (forall k :: Advises(recs, Page, k) <==>
            k in report.avgPageLoadTimes.keys && k in report.avgPageLoadTimes.avg
            && report.avgPageLoadTimes.avg[k].Exceeds(PageThreshold))
      && (forall k :: Advises(recs, Network, k) <==>
            k in report.avgNetworkTimes.keys && k in report.avgNetworkTimes.avg
            && report.avgNetworkTimes.avg[k].Exceeds(NetworkThreshold))
  {
    var recs := LaunchRule(report) + PageRule(report) + NetworkRule(report) + MemoryRule(report);
    assert Recommend(report) == recs;
    RecommendOrdered(report);
    RecommendKinds(report, Launch);
    RecommendKinds(report, Memory);
    RecommendAdvises(report, Page);
    RecommendAdvises(report, Network);
  }

  lemma RecommendOrdered(report: Report)
    ensures Ordered(LaunchRule(report) + PageRule(report) + NetworkRule(report) + MemoryRule(report))
  {
    var pa, na := report.avgPageLoadTimes, report.avgNetworkTimes;
    var launch, pages, requests, memory := LaunchRule(report), PageRule(report), NetworkRule(report), MemoryRule(report);
    SingleOrdered(launch, LaunchRecommendation);
    KeyRuleKinds(pa.keys, pa.avg, PageThreshold, Page, Medium);
    KeyRuleKinds(na.keys, na.avg, NetworkThreshold, Network, High);
    SingleOrdered(memory, MemoryRecommendation);
    ConcatOrdered(launch, pages, 0, 1, 1);
    var front := launch + pages;
    ConcatOrdered(front, requests, 0, 2, 2);
    var body := front + requests;
    ConcatOrdered(body, memory, 0, 3, 3);
  }

  lemma RecommendKinds(report: Report, kind: Kind)
    requires kind == Launch || kind == Memory
    ensures var recs := LaunchRule(report) + PageRule(report) + NetworkRule(report) + MemoryRule(report);
      HasKind(recs, kind) <==> ((kind == Launch && report.launchTime > LaunchThreshold)
                                || (kind == Memory && report.memoryUsage > MemoryThreshold))
  {
    var pa, na := report.avgPageLoadTimes, report.avgNetworkTimes;
    var launch, pages, requests, memory := LaunchRule(report), PageRule(report), NetworkRule(report), MemoryRule(report);
    SingleFacts(launch, report.launchTime > LaunchThreshold, LaunchRecommendation);
    KeyRuleKinds(pa.keys, pa.avg, PageThreshold, Page, Medium);
    KeyRuleKinds(na.keys, na.avg, NetworkThreshold, Network, High);
    SingleFacts(memory, report.memoryUsage > MemoryThreshold, MemoryRecommendation);
    ConcatHasKind(launch, pages, kind);
    ConcatHasKind(launch + pages, requests, kind);
    ConcatHasKind(launch + pages + requests, memory, kind);
  }

  lemma RecommendAdvises(report: Report, kind: Kind)
    requires kind == Page || kind == Network
    ensures var recs := LaunchRule(report) + PageRule(report) + NetworkRule(report) + MemoryRule(report);
      forall k :: Advises(recs, kind, k) <==>
        (kind == Page && k in SlowRoutes(report)) || (kind == Network && k in SlowRequests(report))
  {
    var pa, na := report.avgPageLoadTimes, report.avgNetworkTimes;
    var launch, pages, requests, memory := LaunchRule(report), PageRule(report), NetworkRule(report), MemoryRule(report);
    SingleFacts(launch, report.launchTime > LaunchThreshold, LaunchRecommendation);
    KeyRuleKinds(pa.keys, pa.avg, PageThreshold, Page, Medium);
    KeyRuleKinds(na.keys, na.avg, NetworkThreshold, Network, High);
    KeyRuleAdvises(pa.keys, pa.avg, PageThreshold, Page, Medium);
    KeyRuleAdvises(na.keys, na.avg, NetworkThreshold, Network, High);
    SingleFacts(memory, report.memoryUsage > MemoryThreshold, MemoryRecommendation);
    ConcatAdvises(launch, pages, kind);
    ConcatAdvises(launch + pages, requests, kind);
    ConcatAdvises(launch + pages + requests, memory, kind);
  }

  /**
   * `getOptimizationRecommendations()` with `Date.now()` read as `now`: the
   * rules applied to the current report, each per-key entry carrying the mean
   * of the samples retained for its key.
   */
  function GetOptimizationRecommendations(m: Metrics, now: nat): (recs: seq<Recommendation>)
    ensures var routes, requests := SlowRoutes(GetPerformanceReport(m, now)), SlowRequests(GetPerformanceReport(m, now));
      && |recs| == Count(m.launchTime > LaunchThreshold) + |routes| + |requests| + Count(m.memoryUsage > MemoryThreshold)
      && (m.launchTime > LaunchThreshold ==> recs[0] == LaunchRecommendation)
      && (forall i :: 0 <= i < |routes| ==>
            && routes[i] in m.pageLoadTimes.logs
            && recs[Count(m.launchTime > LaunchThreshold) + i]
               == Recommendation(Page, Medium, Slow(routes[i], MeanOf(m.pageLoadTimes.logs[routes[i]]))))
      && (forall i :: 0 <= i < |requests| ==>
            && requests[i] in m.networkRequestTimes.logs
            && recs[Count(m.launchTime > LaunchThreshold) + |routes| + i]
               == Recommendation(Network, High, Slow(requests[i], MeanOf(m.networkRequestTimes.logs[requests[i]]))))
      && (m.memoryUsage > MemoryThreshold ==> recs[|recs| - 1] == MemoryRecommendation)
  {
    RoutesOverSamples(m, now);
    RequestsOverSamples(m, now);
    Recommend(GetPerformanceReport(m, now))
  }

  /** Each page entry carries the mean of the samples retained for its route. */
  lemma RoutesOverSamples(m: Metrics, now: nat)
    ensures forall i :: 0 <= i < |SlowRoutes(GetPerformanceReport(m, now))| ==>
      && SlowRoutes(GetPerformanceReport(m, now))[i] in m.pageLoadTimes.logs
      && Recommend(GetPerformanceReport(m, now))[Count(m.launchTime > LaunchThreshold) + i]
         == Recommendation(Page, Medium, Slow(SlowRoutes(GetPerformanceReport(m, now))[i],
                                              MeanOf(m.pageLoadTimes.logs[SlowRoutes(GetPerformanceReport(m, now))[i]])))
  {
    forall i | 0 <= i < |SlowRoutes(GetPerformanceReport(m, now))| {
      RouteOverSamples(m, now, i);
    }
  }

  lemma RouteOverSamples(m: Metrics, now: nat, i: nat)
    requires i < |SlowRoutes(GetPerformanceReport(m, now))|
    ensures SlowRoutes(GetPerformanceReport(m, now))[i] in m.pageLoadTimes.logs
    ensures Recommend(GetPerformanceReport(m, now))[Count(m.launchTime > LaunchThreshold) + i]
            == Recommendation(Page, Medium, Slow(SlowRoutes(GetPerformanceReport(m, now))[i],
                                                 MeanOf(m.pageLoadTimes.logs[SlowRoutes(GetPerformanceReport(m, now))[i]])))
  {
    var report := GetPerformanceReport(m, now);
    var k := SlowRoutes(report)[i];
    assert report.launchTime == m.launchTime;
    RecommendedRoute(report, i);
    assert report.avgPageLoadTimes.avg[k] == MeanOf(m.pageLoadTimes.logs[k]);
  }

  /** Each network entry carries the mean of the samples retained for its request key. */
  lemma RequestsOverSamples(m: Metrics, now: nat)
    ensures forall i :: 0 <= i < |SlowRequests(GetPerformanceReport(m, now))| ==>
      && SlowRequests(GetPerformanceReport(m, now))[i] in m.networkRequestTimes.logs
      && Recommend(GetPerformanceReport(m, now))[Count(m.launchTime > LaunchThreshold) + |SlowRoutes(GetPerformanceReport(m, now))| + i]
         == Recommendation(Network, High, Slow(SlowRequests(GetPerformanceReport(m, now))[i],
                                               MeanOf(m.networkRequestTimes.logs[SlowRequests(GetPerformanceReport(m, now))[i]])))
  {
    forall i | 0 <= i < |SlowRequests(GetPerformanceReport(m, now))| {
      RequestOverSamples(m, now, i);
    }
  }

  lemma RequestOverSamples(m: Metrics, now: nat, i: nat)
    requires i < |SlowRequests(GetPerformanceReport(m, now))|
    ensures SlowRequests(GetPerformanceReport(m, now))[i] in m.networkRequestTimes.logs
    ensures Recommend(GetPerformanceReport(m, now))[Count(m.launchTime > LaunchThreshold) + |SlowRoutes(GetPerformanceReport(m, now))| + i]
            == Recommendation(Network, High, Slow(SlowRequests(GetPerformanceReport(m, now))[i],
                                                  MeanOf(m.networkRequestTimes.logs[SlowRequests(GetPerformanceReport(m, now))[i]])))
  {
    var report := GetPerformanceReport(m, now);
    var k := SlowRequests(report)[i];
    assert report.launchTime == m.launchTime;
    RecommendedRequest(report, i);
    assert report.avgNetworkTimes.avg[k] == MeanOf(m.networkRequestTimes.logs[k]);
  }

  /** The `i`-th page entry of a report's recommendations. */
  lemma RecommendedRoute(report: Report, i: nat)
    requires i < |SlowRoutes(report)|
    ensures SlowRoutes(report)[i] in report.avgPageLoadTimes.avg
    ensures Recommend(report)[Count(report.launchTime > LaunchThreshold) + i]
            == Recommendation(Page, Medium, Slow(SlowRoutes(report)[i], report.avgPageLoadTimes.avg[SlowRoutes(report)[i]]))
  {
  }

  /** The `i`-th network entry of a report's recommendations. */
  lemma RecommendedRequest(report: Report, i: nat)
    requires i < |SlowRequests(report)|
    ensures SlowRequests(report)[i] in report.avgNetworkTimes.avg
    ensures Recommend(report)[Count(report.launchTime > LaunchThreshold) + |SlowRoutes(report)| + i]
            == Recommendation(Network, High, Slow(SlowRequests(report)[i], report.avgNetworkTimes.avg[SlowRequests(report)[i]]))
  {
  }

  /** The same facts stated over the stored samples: a key is named iff the mean of its retained samples is too high. */
  lemma RecommendationsOverSamples(m: Metrics, now: nat)
    ensures var recs := GetOptimizationRecommendations(m, now);
      && Ordered(recs)
      && (HasKind(recs, Launch) <==> m.launchTime > LaunchThreshold)
      && (HasKind(recs, Memory) <==> m.memoryUsage > MemoryThreshold)
      && (forall k :: Advises(recs, Page, k) <==>
            k in m.pageLoadTimes.keys && k in m.pageLoadTimes.logs && MeanOf(m.pageLoadTimes.logs[k]).Exceeds(PageThreshold))
      && (forall k :: Advises(recs, Network, k) <==>
            k in m.networkRequestTimes.keys && k in m.networkRequestTimes.logs
            && MeanOf(m.networkRequestTimes.logs[k]).Exceeds(NetworkThreshold))
  {
    var report := GetPerformanceReport(m, now);
    RecommendFacts(report);
    assert GetOptimizationRecommendations(m, now) == Recommend(report);
  }

  /**
   * On metrics that keep their invariant, the number of recommendations is the
   * number of rules that fire: one per slow route and one per slow request key.
   */
  lemma RecommendationCount(m: Metrics, now: nat)
    requires Telemetry.Valid(m)
    ensures |GetOptimizationRecommendations(m, now)| ==
      Count(m.launchTime > LaunchThreshold)
      + |set k | k in m.pageLoadTimes.logs && MeanOf(m.pageLoadTimes.logs[k]).Exceeds(PageThreshold)|
      + |set k | k in m.networkRequestTimes.logs && MeanOf(m.networkRequestTimes.logs[k]).Exceeds(NetworkThreshold)|
      + Count(m.memoryUsage > MemoryThreshold)
  {
    SlowCountOfStore(m.pageLoadTimes, PageCap, PageThreshold);
    SlowCountOfStore(m.networkRequestTimes, NetworkCap, NetworkThreshold);
  }

  /** On a valid store, the slow keys of its averages are as many as its slow series. */
  lemma SlowCountOfStore(st: Store, cap: nat, threshold: int)
    requires WellFormed(st, cap)
    ensures |SlowKeys(Average(st).keys, Average(st).avg, threshold)|
         == |set k | k in st.logs && MeanOf(st.logs[k]).Exceeds(threshold)|
  {
    var a := Average(st);
    SlowKeysCount(a.keys, a.avg, threshold);
    var s1 := SlowSet(a.keys, a.avg, threshold);
    var s2 := set k | k in st.logs && MeanOf(st.logs[k]).Exceeds(threshold);
    forall k | k in s1 ensures k in s2 {
      assert a.avg[k] == MeanOf(st.logs[k]);
    }
    forall k | k in s2 ensures k in s1 {
      assert a.avg[k] == MeanOf(st.logs[k]);
    }
    assert s1 == s2;
  }

  /**
   * A report with a 4000 ms launch, one route averaging 2500 ms, no request
   * keys and 60 MiB in use yields exactly a launch, a page and a memory entry.
   */
  lemma ThreeRulesFire()
    ensures Recommend(Report(4000, Averages(["/home"], map["/home" := Avg(2500, 1)]), Averages([], map[]),
                             60 * 1024 * 1024, 0.0, 0))
         == [LaunchRecommendation, Recommendation(Page, Medium, Slow("/home", Avg(2500, 1))), MemoryRecommendation]
  {
  }

  /** Every comparison is strict: values exactly at the thresholds yield nothing. */
  lemma ThresholdsAreStrict()
    ensures Recommend(Report(3000, Averages(["/a"], map["/a" := Avg(4000, 2)]), Averages(["u"], map["u" := Avg(15000, 3)]),
                             50 * 1024 * 1024, 0.0, 0)) == []
  {
  }
}

=== FILE: series.dfy ===
/**
 * Bounded, per-key logs of timed samples (`performanceMetrics.pageLoadTimes`
 * and `performanceMetrics.networkRequestTimes` in app.js), and the generic
 * "append, then keep only the last N" rule that also bounds the error log.
 */
module Series {

  /** One retained measurement. Page-load samples carry no success flag; request samples do. */
  datatype Sample =
    | PageSample(time: int, timestamp: nat)
    | RequestSample(time: int, success: bool, timestamp: nat)

  function Min(a: int, b: int): int {
    if a <= b then a else b
  }

  /** `arr.length > n ? arr.slice(-n) : arr` for a positive `n`: the newest `n` elements, oldest first. */
  function KeepLast<T>(s: seq<T>, n: nat): (r: seq<T>)
    requires 0 < n
    ensures |r| == Min(|s|, n)
    ensures forall i :: 0 <= i < |r| ==> r[i] == s[|s| - |r| + i]
  {
    if |s| > n then s[|s| - n..] else s
  }

  /** Dropping the oldest elements before or after one more append ends in the same window. */
  lemma {:induction false} KeepLastAppend<T>(s: seq<T>, x: T, n: nat)
    requires 0 < n
    ensures KeepLast(KeepLast(s, n) + [x], n) == KeepLast(s + [x], n)
  {
    if |s| > n {
      var k := s[|s| - n..];
      assert KeepLast(s, n) == k;
      assert (k + [x])[1..] == (s + [x])[|s| + 1 - n..];
    } else {
      assert KeepLast(s, n) == s;
    }
  }

  /**
   * Per-key logs. `keys` lists the keys in the order they were created, which
   * is the order `Object.keys` enumerates them in.
   */
  datatype Store = Store(keys: seq<string>, logs: map<string, seq<Sample>>)

  const Empty: Store := Store([], map[])

  ghost predicate Distinct<T>(s: seq<T>) {
    forall i, j :: 0 <= i < j < |s| ==> s[i] != s[j]
  }

  /**
   * The store's invariant: each key is listed once, the listed keys are the
   * stored ones, and every stored log holds between 1 and `cap` samples (a
   * key is created and pushed to in the same call).
   */
  ghost predicate WellFormed(st: Store, cap: nat) {
    && Distinct(st.keys)
    && (forall k :: k in st.logs <==> k in st.keys)
    && (forall k :: k in st.logs ==> 0 < |st.logs[k]| <= cap)
  }

  /** The samples retained for `key`; empty when the key was never recorded. */
  function Log(st: Store, key: string): seq<Sample> {
    if key in st.logs then st.logs[key] else []
  }

  /** Record `x` under `key`: create the key if absent, push, then keep the newest `cap` samples. */
  function Append(st: Store, key: string, x: Sample, cap: nat): (r: Store)
    requires 0 < cap
    ensures r.logs.Keys == st.logs.Keys + {key}
    ensures |r.logs[key]| == Min(|Log(st, key)| + 1, cap)
    ensures r.logs[key] == KeepLast(Log(st, key) + [x], cap)
    ensures r.logs[key][|r.logs[key]| - 1] == x
    ensures forall k :: k in st.logs && k != key ==> r.logs[k] == st.logs[k]
    ensures key in st.logs ==> r.keys == st.keys
    ensures key !in st.logs ==> r.keys == st.keys + [key]
    ensures WellFormed(st, cap) ==> WellFormed(r, cap)
  {
    var log := KeepLast(Log(st, key) + [x], cap);
    var r := if key in st.logs then Store(st.keys, st.logs[key := log])
             else Store(st.keys + [key], st.logs[key := log]);
    assert WellFormed(st, cap) ==> WellFormed(r, cap) by {
      if WellFormed(st, cap) && key !in st.logs {
        assert key !in st.keys;
      }
    }
    r
  }

  /** Record every sample of `xs` under `key`, in order. */
  function AppendAll(st: Store, key: string, xs: seq<Sample>, cap: nat): (r: Store)
    requires 0 < cap
    decreases |xs|
  {
    if xs == [] then st else AppendAll(Append(st, key, xs[0], cap), key, xs[1..], cap)
  }

  /** Recording under `key` never touches another key's log. */
  lemma {:induction false} AppendAllOtherKeys(st: Store, key: string, xs: seq<Sample>, cap: nat, k: string)
    requires 0 < cap
    requires k != key
    ensures Log(AppendAll(st, key, xs, cap), k) == Log(st, k)
    decreases |xs|
  {
    if xs != [] {
      AppendAllOtherKeys(Append(st, key, xs[0], cap), key, xs[1..], cap, k);
    }
  }

  /** Any run of records under one key keeps the store's invariant. */
  lemma {:induction false} AppendAllWellFormed(st: Store, key: string, xs: seq<Sample>, cap: nat)
    requires 0 < cap
    requires WellFormed(st, cap)
    ensures WellFormed(AppendAll(st, key, xs, cap), cap)
    decreases |xs|
  {
    if xs != [] {
      AppendAllWellFormed(Append(st, key, xs[0], cap), key, xs[1..], cap);
    }
  }

  /** The window part of `AppendAllKeepsNewest`, by induction on the records. */
  lemma {:induction false} AppendAllWindow(st: Store, key: string, xs: seq<Sample>, cap: nat)
    requires 0 < cap
    requires |Log(st, key)| <= cap
    ensures Log(AppendAll(st, key, xs, cap), key) == KeepLast(Log(st, key) + xs, cap)
    decreases |xs|
  {
    var prior := Log(st, key);
    if xs == [] {
      assert prior + xs == prior;
      assert |prior| <= cap;
      assert KeepLast(prior, cap) == prior;
    } else {
      var st' := Append(st, key, xs[0], cap);
      var rest := xs[1..];
      var whole := prior + [xs[0]];
      assert whole + rest == prior + xs;
      assert Log(st', key) == KeepLast(whole, cap);
      AppendAllWindow(st', key, rest, cap);
      KeepLastAppendAll(whole, rest, cap);
    }
  }

  /**
   * After any run of records under one key, the key's log is the newest `cap`
   * samples of everything recorded under it, oldest first, and the store
   * still satisfies its invariant.
   */
  lemma AppendAllKeepsNewest(st: Store, key: string, xs: seq<Sample>, cap: nat)
    requires 0 < cap
    requires WellFormed(st, cap)
    ensures Log(AppendAll(st, key, xs, cap), key) == KeepLast(Log(st, key) + xs, cap)
    ensures WellFormed(AppendAll(st, key, xs, cap), cap)
  {
    assert |Log(st, key)| <= cap;
    AppendAllWindow(st, key, xs, cap);
    AppendAllWellFormed(st, key, xs, cap);
  }

  /** Truncating a prefix before appending more does not change the final window. */
  lemma {:induction false} KeepLastAppendAll<T>(s: seq<T>, xs: seq<T>, n: nat)
    requires 0 < n
    ensures KeepLast(KeepLast(s, n) + xs, n) == KeepLast(s + xs, n)
    decreases |xs|
  {
    if xs == [] {
      assert KeepLast(s, n) + xs == KeepLast(s, n);
      assert s + xs == s;
    } else {
      var init := xs[..|xs| - 1];
      var x := xs[|xs| - 1];
      assert xs == init + [x];
      KeepLastAppendAll(s, init, n);
      assert KeepLast(s, n) + xs == (KeepLast(s, n) + init) + [x];
      assert s + xs == (s + init) + [x];
      KeepLastAppend(KeepLast(s, n) + init, x, n);
      KeepLastAppend(s + init, x, n);
    }
  }

  /** Windowing after each of two appends is windowing once after both. */
  lemma WindowThenAppend<T>(stored: seq<T>, added: seq<T>, rest: seq<T>, next: seq<T>, n: nat)
    requires 0 < n
    requires next == KeepLast(stored + added, n)
    ensures KeepLast(next + rest, n) == KeepLast(stored + (added + rest), n)
  {
    var whole := stored + added;
    assert whole + rest == stored + (added + rest);
    KeepLastAppendAll(whole, rest, n);
  }

  /** Starting from an empty store, N records under one key leave min(N, cap) samples: the newest ones. */
  lemma RecordsFromEmpty(key: string, xs: seq<Sample>, cap: nat)
    requires 0 < cap
    ensures |Log(AppendAll(Empty, key, xs, cap), key)| == Min(|xs|, cap)
    ensures Log(AppendAll(Empty, key, xs, cap), key) == xs[|xs| - Min(|xs|, cap)..]
  {
    assert Log(Empty, key) == [];
    AppendAllWindow(Empty, key, xs, cap);
    assert Log(Empty, key) + xs == xs;
    KeepLastIsSuffix(xs, cap);
  }

  lemma KeepLastIsSuffix<T>(s: seq<T>, n: nat)
    requires 0 < n
    ensures KeepLast(s, n) == s[|s| - Min(|s|, n)..]
  {
    if |s| <= n {
      assert s[0..] == s;
    }
  }

  /** `times.reduce((sum, t) => sum + t, 0)`: the total of the retained durations. */
  function SumTimes(s: seq<Sample>): int {
    if s == [] then 0 else SumTimes(s[..|s| - 1]) + s[|s| - 1].time
  }
}

=== FILE: telemetry.dfy ===
/**
 * `globalData.performanceMetrics` and the operations on it: recording page-load
 * and request timings, the performance report, and the reset.
 */
module Telemetry {
  import opened Series

  /** Retention caps of the two series kinds. */
  const PageCap: nat := 10
  const NetworkCap: nat := 20

  datatype Metrics = Metrics(
    launchTime: int,
    pageLoadTimes: Store,
    networkRequestTimes: Store,
    memoryUsage: int,
    cacheHitRate: real)

  /** The metrics as initialised in `globalData` and after a reset. */
  const Initial: Metrics := Metrics(0, Empty, Empty, 0, 0.0)

  /** Both series stores keep their invariant under their own cap. */
  ghost predicate Valid(m: Metrics) {
    WellFormed(m.pageLoadTimes, PageCap) && WellFormed(m.networkRequestTimes, NetworkCap)
  }

  /** `recordPageLoadTime(route, loadTime)` with `Date.now()` read as `now`. */
  function RecordPageLoadTime(m: Metrics, route: string, loadTime: int, now: nat): (r: Metrics)
    ensures Log(r.pageLoadTimes, route) == KeepLast(Log(m.pageLoadTimes, route) + [PageSample(loadTime, now)], PageCap)
    ensures |Log(r.pageLoadTimes, route)| == Min(|Log(m.pageLoadTimes, route)| + 1, PageCap)
    ensures Log(r.pageLoadTimes, route)[|Log(r.pageLoadTimes, route)| - 1] == PageSample(loadTime, now)
    ensures forall k :: k != route ==> Log(r.pageLoadTimes, k) == Log(m.pageLoadTimes, k)
    ensures r.pageLoadTimes.keys == if route in m.pageLoadTimes.logs then m.pageLoadTimes.keys else m.pageLoadTimes.keys + [route]
    ensures r.networkRequestTimes == m.networkRequestTimes
    ensures r.launchTime == m.launchTime && r.memoryUsage == m.memoryUsage && r.cacheHitRate == m.cacheHitRate
    ensures Valid(m) ==> Valid(r)
  {
    m.(pageLoadTimes := Append(m.pageLoadTimes, route, PageSample(loadTime, now), PageCap))
  }

  /**
   * `recordNetworkRequestTime(key, requestTime, success)` with `Date.now()` read
   * as `now`. The source's default `success = true` is passed explicitly by callers.
   */
  function RecordNetworkRequestTime(m: Metrics, key: string, requestTime: int, success: bool, now: nat): (r: Metrics)
    ensures Log(r.networkRequestTimes, key) == KeepLast(Log(m.networkRequestTimes, key) + [RequestSample(requestTime, success, now)], NetworkCap)
    ensures |Log(r.networkRequestTimes, key)| == Min(|Log(m.networkRequestTimes, key)| + 1, NetworkCap)
    ensures Log(r.networkRequestTimes, key)[|Log(r.networkRequestTimes, key)| - 1] == RequestSample(requestTime, success, now)
    ensures forall k :: k != key ==> Log(r.networkRequestTimes, k) == Log(m.networkRequestTimes, k)
    ensures r.networkRequestTimes.keys == if key in m.networkRequestTimes.logs then m.networkRequestTimes.keys else m.networkRequestTimes.keys + [key]
    ensures r.pageLoadTimes == m.pageLoadTimes
    ensures r.launchTime == m.launchTime && r.memoryUsage == m.memoryUsage && r.cacheHitRate == m.cacheHitRate
    ensures Valid(m) ==> Valid(r)
  {
    m.(networkRequestTimes := Append(m.networkRequestTimes, key, RequestSample(requestTime, success, now), NetworkCap))
  }

  /** `clearPerformanceData()`: every scalar back to zero, both series maps emptied. */
  function ClearPerformanceData(m: Metrics): (r: Metrics)
    ensures r.launchTime == 0 && r.memoryUsage == 0 && r.cacheHitRate == 0.0
    ensures r.pageLoadTimes.logs == map[] && r.pageLoadTimes.keys == []
    ensures r.networkRequestTimes.logs == map[] && r.networkRequestTimes.keys == []
    ensures Valid(r)
  {
    Initial
  }

  /**
   * The mean of one series as an exact sum/count pair. A count of zero stands
   * for JavaScript's `0 / 0`, which is `NaN`.
   */
  datatype Avg = Avg(sum: int, count: nat) {

    /** The exact arithmetic mean. */
    function Value(): real
      requires count > 0
    {
      sum as real / count as real
    }

    /** `avg > threshold`; every comparison with `NaN` is false. */
    predicate Exceeds(threshold: int) {
      count > 0 && sum > threshold * count
    }
  }

  /** Comparing the pair with a threshold is comparing the exact mean with it. */
  lemma ExceedsIffMeanAbove(a: Avg, threshold: int)
    ensures a.Exceeds(threshold) <==> a.count > 0 && a.Value() > threshold as real
  {
    if a.count > 0 {
      var c := a.count as real;
      assert a.Value() * c == a.sum as real;
      if a.sum > threshold * a.count {
        assert a.Value() * c > threshold as real * c;
      }
      if a.Value() > threshold as real {
        assert a.Value() * c > threshold as real * c;
      }
    }
  }

  /** The mean of the retained samples of one series. */
  function MeanOf(s: seq<Sample>): Avg {
    Avg(SumTimes(s), |s|)
  }

  /** The per-key averages of a report, enumerated in `keys` order. */
  datatype Averages = Averages(keys: seq<string>, avg: map<string, Avg>)

  datatype Report = Report(
    launchTime: int,
    avgPageLoadTimes: Averages,
    avgNetworkTimes: Averages,
    memoryUsage: int,
    cacheHitRate: real,
    timestamp: nat)

  /** One average per stored key, over exactly the samples retained for it. */
  function Average(st: Store): (r: Averages)
    ensures r.keys == st.keys
    ensures r.avg.Keys == st.logs.Keys
    ensures forall k :: k in r.avg ==> r.avg[k].count == |st.logs[k]| && r.avg[k].sum == SumTimes(st.logs[k])
  {
    Averages(st.keys, map k | k in st.logs :: MeanOf(st.logs[k]))
  }

  /** `getPerformanceReport()` with `Date.now()` read as `now`. */
  function GetPerformanceReport(m: Metrics, now: nat): (r: Report)
    ensures r.launchTime == m.launchTime && r.memoryUsage == m.memoryUsage && r.cacheHitRate == m.cacheHitRate
    ensures r.timestamp == now
    ensures r.avgPageLoadTimes.keys == m.pageLoadTimes.keys && r.avgPageLoadTimes.avg.Keys == m.pageLoadTimes.logs.Keys
    ensures r.avgNetworkTimes.keys == m.networkRequestTimes.keys && r.avgNetworkTimes.avg.Keys == m.networkRequestTimes.logs.Keys
    ensures forall k :: k in r.avgPageLoadTimes.avg ==> r.avgPageLoadTimes.avg[k] == MeanOf(m.pageLoadTimes.logs[k])
    ensures forall k :: k in r.avgNetworkTimes.avg ==> r.avgNetworkTimes.avg[k] == MeanOf(m.networkRequestTimes.logs[k])
  {
    Report(m.launchTime, Average(m.pageLoadTimes), Average(m.networkRequestTimes),
           m.memoryUsage, m.cacheHitRate, now)
  }

  /**
   * On metrics that keep their invariant no average divides by zero: every
   * reported mean is the exact mean of between 1 and cap retained samples.
   */
  lemma ReportMeansDefined(m: Metrics, now: nat)
    requires Valid(m)
    ensures var r := GetPerformanceReport(m, now);
      && (forall k :: k in r.avgPageLoadTimes.avg ==>
            && 0 < r.avgPageLoadTimes.avg[k].count <= PageCap
            && r.avgPageLoadTimes.avg[k].Value() == SumTimes(m.pageLoadTimes.logs[k]) as real / |m.pageLoadTimes.logs[k]| as real)
      && (forall k :: k in r.avgNetworkTimes.avg ==>
            && 0 < r.avgNetworkTimes.avg[k].count <= NetworkCap
            && r.avgNetworkTimes.avg[k].Value() == SumTimes(m.networkRequestTimes.logs[k]) as real / |m.networkRequestTimes.logs[k]| as real)
  {
  }

  /** After a reset the next report has zero scalars and no averages at all. */
  lemma ReportAfterClear(m: Metrics, now: nat)
    ensures var r := GetPerformanceReport(ClearPerformanceData(m), now);
      && r.launchTime == 0 && r.memoryUsage == 0 && r.cacheHitRate == 0.0
      && r.avgPageLoadTimes.avg == map[] && r.avgPageLoadTimes.keys == []
      && r.avgNetworkTimes.avg == map[] && r.avgNetworkTimes.keys == []
  {
  }

  /** Three page loads of 100, 200 and 300 ms under one route average 200 ms. */
  lemma MeanOfThreeLoads(route: string)
    ensures var m := RecordPageLoadTime(RecordPageLoadTime(RecordPageLoadTime(Initial, route, 100, 1), route, 200, 2), route, 300, 3);
      GetPerformanceReport(m, 4).avgPageLoadTimes.avg[route].Value() == 200.0
  {
    var m := RecordPageLoadTime(RecordPageLoadTime(RecordPageLoadTime(Initial, route, 100, 1), route, 200, 2), route, 300, 3);
    var s := [PageSample(100, 1), PageSample(200, 2), PageSample(300, 3)];
    ThreeLoadsRetained(route);
    SumOfThreeLoads();
    assert GetPerformanceReport(m, 4).avgPageLoadTimes.avg[route] == Avg(600, 3);
  }

  /** All three samples are retained, oldest first. */
  lemma ThreeLoadsRetained(route: string)
    ensures var m := RecordPageLoadTime(RecordPageLoadTime(RecordPageLoadTime(Initial, route, 100, 1), route, 200, 2), route, 300, 3);
      route in m.pageLoadTimes.logs
      && m.pageLoadTimes.logs[route] == [PageSample(100, 1), PageSample(200, 2), PageSample(300, 3)]
  {
    var a, b, c := PageSample(100, 1), PageSample(200, 2), PageSample(300, 3);
    var st1 := Append(Empty, route, a, PageCap);
    var st2 := Append(st1, route, b, PageCap);
    var st3 := Append(st2, route, c, PageCap);
    assert [a, b, c][1..] == [b, c] && [b, c][1..] == [c] && [c][1..] == [];
    assert AppendAll(st3, route, [], PageCap) == st3;
    assert AppendAll(st2, route, [c], PageCap) == st3;
    assert AppendAll(st1, route, [b, c], PageCap) == st3;
    assert AppendAll(Empty, route, [a, b, c], PageCap) == st3;
    RecordsFromEmpty(route, [a, b, c], PageCap);
    assert [a, b, c][0..] == [a, b, c];
  }

  lemma SumOfThreeLoads()
    ensures SumTimes([PageSample(100, 1), PageSample(200, 2), PageSample(300, 3)]) == 600
  {
    var s1 := [PageSample(100, 1)];
    var s2 := s1 + [PageSample(200, 2)];
    var s3 := s2 + [PageSample(300, 3)];
    assert s1[..0] == [];
    assert SumTimes(s1) == 100;
    assert s2[..1] == s1;
    assert SumTimes(s2) == 300;
    assert s3[..2] == s2;
  }
}

=== FILE: text.dfy ===
/** String predicates the error classifiers rely on. */
module Text {

  predicate StartsWith(s: string, p: string) {
    |p| <= |s| && s[..|p|] == p
  }

  /** JavaScript's `String.prototype.includes`: `p` occurs somewhere in `s`. */
  predicate Includes(s: string, p: string)
    decreases |s|
  {
    StartsWith(s, p) || (|s| > 0 && Includes(s[1..], p))
  }

  /** `p` occurs in `s` starting at index `i`. */
  predicate OccursAt(s: string, p: string, i: int) {
    0 <= i <= |s| - |p| && s[i..i + |p|] == p
  }

  /** `Includes` agrees with the positional definition of a substring occurrence. */
  lemma {:induction false} IncludesIffOccurs(s: string, p: string)
    ensures Includes(s, p) <==> exists i :: OccursAt(s, p, i)
    decreases |s|
  {
    if Includes(s, p) {
      if StartsWith(s, p) {
        assert OccursAt(s, p, 0);
      } else {
        IncludesIffOccurs(s[1..], p);
        var j :| OccursAt(s[1..], p, j);
        assert s[j + 1..j + 1 + |p|] == s[1..][j..j + |p|];
        assert OccursAt(s, p, j + 1);
      }
    }
    if exists i :: OccursAt(s, p, i) {
      var i :| OccursAt(s, p, i);
      if i == 0 {
        assert s[..|p|] == p;
      } else {
        assert s[1..][i - 1..i - 1 + |p|] == s[i..i + |p|];
        assert OccursAt(s[1..], p, i - 1);
        IncludesIffOccurs(s[1..], p);
      }
    }
  }

  /** `p` is absent from `s` when no window of `s` starts with `p`'s first two characters. */
  lemma {:induction false} NotIncludes(s: string, p: string)
    requires 2 <= |p|
    requires forall i :: 0 <= i <= |s| - |p| ==> s[i] != p[0] || s[i + 1] != p[1]
    ensures !Includes(s, p)
    decreases |s|
  {
    if |p| <= |s| {
      assert s[..|p|][0] == s[0] && s[..|p|][1] == s[1];
    }
    if |s| > 0 {
      var t := s[1..];
      forall i | 0 <= i <= |t| - |p| ensures t[i] != p[0] || t[i + 1] != p[1] {
        assert t[i] == s[i + 1] && t[i + 1] == s[i + 2];
      }
      NotIncludes(t, p);
    }
  }
}

=== FILE: wrappers.dfy ===
/** The optional-value datatype the model uses for JavaScript's absent / undefined fields. */
module Wrappers {

  datatype Option<+T> = None | Some(value: T)
}
